=== FILE: README.md ===
# py7dtd core, modelled in Dafny

py7dtd is a set of Windows bots and scripts for the game *7 Days to Die*. Beneath the Win32, screen-capture
and object-detection plumbing sits integer, string and sequence logic, and this project models that logic
and proves properties of it:

- **Auto shooting** (`AutoShooting`). This covers:
  - the choice of the "nearest" zombie box;
  - its integer centre (`Geometry`);
  - the pointer move relative to the window centre;
  - the capture → detect → aim → click → sleep loop, as a function of the ticks it observes.
- **Detection grouping** (`Detection`): a flat detection list becomes a label → box-list map.
- **Window handling** (`WindowHandler`): the not-found error of `select_window`, and the relative and
  absolute window centres.
- **Key watcher** (`KeyWatcher`): the keyboard hook, as a state step over {hooked, quit posted, stop
  requested}.
- **Passcode bot** (`CrackPasscodeBot`). This covers:
  - argument validation and the method default;
  - character-set assembly;
  - brute-force enumeration (`Enumeration`);
  - dictionary resume and line stripping (`Text`);
  - the five-code memory, the attempt and try counters, and `check_stopped`;
  - the whole attack as a function of what the screen answers.
- **Older passcode script** (`CrackPasscodeScript`). This covers:
  - its own validation and default;
  - the pointer centre;
  - the keystroke trace of every attempt;
  - the limit count.
- **Map block scanner** (`BlocksDetection`). This covers:
  - argument checks and the output-name default;
  - the per-pixel recolouring pass;
  - `int_to_signed_short`.

Operating-system effects become parameters. These are window lookup, file existence, the image-format
probe, the detector's output, key events, the "correct passcode" pixel probe and the clock. Actions the
programs take on the screen are recorded as traces of `Action` values.

In two places the code does less than its own text suggests, and the model follows the code:

- **Zombie selection is not a maximum.** The comment at `src/py7dtd/bots/auto_shooting.py:73` calls the
  chosen box the nearest, i.e. the biggest rectangle. But the area of the first box is computed once and
  never updated, so the chosen box is the last one whose area is strictly greater than the first box's.
  For areas 100, 1200, 500 the third box wins (`AutoShooting.SelectionIsNotMaximal`).
- **There is no field-of-view transform.** `src/py7dtd/constants.py:11-13` defines minimum, maximum and
  default horizontal fields of view, but no code reads them. The move is the raw pixel difference between
  the target centre and the window centre.

## Model

| member | source | states |
|---|---|---|
| Geometry.Half | src/py7dtd/io/window_handler.py:28-29 | `n // 2` for any sign of `n`: the unique `h` with `2h <= n < 2h + 2` (floor division) |
| Geometry.Center | src/py7dtd/bots/auto_shooting.py:86-89 | the target point is `x0 + (x1-x0)//2, y0 + (y1-y0)//2` as floor halves, and lies inside the box whenever the box is not inverted |
| WindowHandler.SelectWindow | src/py7dtd/io/window_handler.py:11-23 | an error (naming the window) exactly when the lookup returns handle 0; otherwise the window rectangle unchanged |
| WindowHandler.RelativeCenter | src/py7dtd/io/window_handler.py:26-30 | half the width and half the height (floor); within `[0, width] x [0, height]` for a non-negative-size rectangle |
| WindowHandler.AbsoluteCenter | src/py7dtd/io/window_handler.py:33-37 | x is left plus the relative x; y is top plus the relative y plus the 20-pixel title bar; x lies within the window |
| KeyWatcher.Create | src/py7dtd/io/key_watcher.py:13-17 | construction hooks the keyboard with `on_keyboard_event` as key-down handler; nothing stopped or posted yet |
| KeyWatcher.OnKey | src/py7dtd/io/key_watcher.py:19-26 | the handler always returns True; ESC (27) requests stop, posts quit and unhooks unless `stop_func` raises; any other key leaves the watcher unchanged |
| KeyWatcher.Shutdown | src/py7dtd/io/key_watcher.py:31-34 | shutdown posts the quit message and unhooks, leaving the stop request and handler alone |
| KeyWatcher.Deliver | src/py7dtd/io/key_watcher.py:19-26 | a stop request is never withdrawn; an unhooked watcher ignores all keys |
| KeyWatcher.DeliverEsc | src/py7dtd/io/key_watcher.py:21-24 | a hooked watcher that sees an ESC ends stopped, unhooked and with quit posted |
| KeyWatcher.DeliverWithoutEsc | src/py7dtd/io/key_watcher.py:21 | keys other than ESC change nothing |
| KeyWatcher.DeliverConsistent | src/py7dtd/io/key_watcher.py:19-34 | "hooked exactly until a stop is requested" is kept by every key sequence |
| Detection.Group | src/py7dtd/ai/detection.py:25-34 | keys are exactly the detected names; each label maps to the boxes of that label's detections in input order; no list is empty |
| Detection.Labels | src/py7dtd/ai/detection.py:26-28 | the labels in insertion order are no more than the detections, and the first detection's name comes first |
| Detection.BoxesOfEmptyIffAbsent | src/py7dtd/ai/detection.py:26-32 | a label has no boxes exactly when no detection carries it |
| Detection.LabelsAreTheKeys | src/py7dtd/ai/detection.py:26-28 | the labels in first-seen order are distinct and are exactly the detected names |
| Detection.GroupKeepsEveryDetection | src/py7dtd/ai/detection.py:26-32 | the map's keys are the labels, and the box counts over all keys add up to the number of detections |
| Detection.CountUnderCovering | src/py7dtd/ai/detection.py:26-32 | counting detections per label over a distinct key list covering every name counts each detection once |
| Detection.TotalIsCount | src/py7dtd/ai/detection.py:30-32 | the number of boxes stored under a list of keys equals the number of detections carrying those keys |
| Detection.GroupOfNothing | src/py7dtd/ai/detection.py:25-34 | no detections give an empty map |
| Detection.GroupScenario | src/py7dtd/ai/detection.py:25-34 | a three-detection example groups two zombie boxes in order and one tree box |
| AutoShooting.NearestIndex | src/py7dtd/bots/auto_shooting.py:75-85 | the chosen index is the last box with area strictly above the first box's, or 0 if there is none; its area is at least the first box's |
| AutoShooting.NearestUnique | src/py7dtd/bots/auto_shooting.py:77-85 | the selection rule picks exactly one box |
| AutoShooting.SelectNearest | src/py7dtd/bots/auto_shooting.py:75-85 | the loop returns the selected box and its index; it compares areas once per box when there are several boxes, and never for a single box |
| AutoShooting.TwoBoxes | src/py7dtd/bots/auto_shooting.py:77-85 | of two boxes a strictly larger second box wins and a tie keeps the first |
| AutoShooting.SelectionIsNotMaximal | src/py7dtd/bots/auto_shooting.py:77-85 | with areas 100, 1200, 500 the third box is chosen, not the largest |
| AutoShooting.RelMove | src/py7dtd/bots/auto_shooting.py:91-94 | the move carries the pointer onto the target, and is (0, 0) exactly when they coincide |
| AutoShooting.Shoot | src/py7dtd/bots/auto_shooting.py:75-100 | exactly one relative move, to the selected box's centre minus the window centre, followed by one left click |
| AutoShooting.ShootScenario | src/py7dtd/bots/auto_shooting.py:75-100 | boxes of area 100 and 1200 with the pointer at (960, 540) give the move to (15, 20) |
| AutoShooting.Pass | src/py7dtd/bots/auto_shooting.py:62-99 | the body up to the sleep captures the window first and never sleeps; without a "zombie" key it does nothing else; with one it makes one move to the selected centre, then one click |
| AutoShooting.Iteration | src/py7dtd/bots/auto_shooting.py:62-102 | each pass captures the window and ends with the sleep; without a "zombie" key it does nothing else; with one it makes one move to the selected centre, then one click |
| AutoShooting.PassShape | src/py7dtd/bots/auto_shooting.py:62-99 | the body up to the sleep holds one capture, of the selected window, and every move in it is clicked |
| AutoShooting.OneCapturePerIteration | src/py7dtd/bots/auto_shooting.py:62-102 | a pass holds one capture, of the selected window, and every move in it is clicked |
| AutoShooting.LoopShape | src/py7dtd/bots/auto_shooting.py:61-102 | over any ticks, every move is immediately followed by a click and every capture is of the start-up rectangle |
| AutoShooting.Loop | src/py7dtd/bots/auto_shooting.py:61-102 | at most one pass per tick; a trace starts with a capture; with a negative delay at most one pass runs and nothing is slept, because `time.sleep` raises on the negative argument |
| AutoShooting.NoEscEveryTickRuns | src/py7dtd/bots/auto_shooting.py:61-102 | while no ESC arrives, the body runs once per tick; with a negative delay the first pass is the only one |
| AutoShooting.NegativeDelayEndsAfterFirstPass | src/py7dtd/bots/auto_shooting.py:62-102 | with a negative delay and no ESC before it, the run is exactly the first pass without its sleep |
| AutoShooting.EscEndsTheLoop | src/py7dtd/bots/auto_shooting.py:61 | once ESC has set the stop flag, no further iteration runs |
| AutoShooting.NoWindowNoActions | src/py7dtd/bots/auto_shooting.py:46-52 | when the game window is not found the run ends with no action at all |
| AutoShooting.Start | src/py7dtd/bots/auto_shooting.py:46-102 | without the game window nothing happens; a run never has more passes than ticks, and captures only once a window was found |
| AutoShooting.StartShape | src/py7dtd/bots/auto_shooting.py:46-102 | a run with a window clicks after every move, captures only the window found at start-up, and absent ESC runs once per tick (only once, for a negative delay) |
| Text.CharRange | src/py7dtd/bots/crack_passcode.py:41-42 | the run of consecutive code points from `lo` to `hi` |
| Text.CharRangeMembers | src/py7dtd/bots/crack_passcode.py:41-42 | a character is in the run exactly when it lies between the two ends |
| Text.StripLeading | src/py7dtd/bots/crack_passcode.py:208 | a suffix of the input that starts with a non-space, after only whitespace |
| Text.StripTrailing | src/py7dtd/bots/crack_passcode.py:208 | a prefix of the input that ends with a non-space, before only whitespace |
| Text.Strip | src/py7dtd/bots/crack_passcode.py:208 | `str.strip()` result: no whitespace at either end, never longer than the input |
| Text.StripRemovesOnlyOuterSpace | src/py7dtd/bots/crack_passcode.py:208 | the input is some whitespace, then the stripped text, then more whitespace |
| Text.StripUnique | src/py7dtd/bots/crack_passcode.py:208 | stripping a trimmed string surrounded by any whitespace gives back exactly that string |
| Text.StripIdempotent | src/py7dtd/bots/crack_passcode.py:208 | stripping twice is stripping once |
| Enumeration.PrefixAll | src/py7dtd/bots/crack_passcode.py:178-181 | one character prepended to each tail, in order |
| Enumeration.PrefixEach | src/py7dtd/bots/crack_passcode.py:178-181 | one product step has `len(chars) * len(tails)` entries |
| Enumeration.Product | src/py7dtd/bots/crack_passcode.py:178-181 | `product(chars, repeat=n)` joined: `len(chars)^n` strings, each of length `n`, over `chars` |
| Enumeration.PrefixEachIndex | src/py7dtd/bots/crack_passcode.py:178-181 | entry `i` of a product step is character `i / len(tails)` followed by tail `i % len(tails)` |
| Enumeration.ProductOrder | src/py7dtd/bots/crack_passcode.py:178-181 | product order is an odometer: the first character is the slowest digit |
| Enumeration.ProductComplete | src/py7dtd/bots/crack_passcode.py:178-181 | every string of length `n` over `chars` is produced |
| Enumeration.ProductOfNothing | src/py7dtd/bots/crack_passcode.py:178 | with no characters only length 0 yields anything (the empty string) |
| Enumeration.Candidates | src/py7dtd/bots/crack_passcode.py:177-181 | there are `len(chars)^min + ... + len(chars)^max` candidates; each has a length in `min..max` and characters from `chars`; shorter lengths come first |
| Enumeration.CandidatesInProductOrder | src/py7dtd/bots/crack_passcode.py:177-181 | for every length `n` in `min..max`, the candidates right after all shorter ones are exactly `product(chars, repeat=n)`, in order |
| Enumeration.CandidatesNonEmpty | src/py7dtd/bots/crack_passcode.py:177-181 | a non-empty alphabet and `min <= max` give at least one candidate |
| Enumeration.CandidatesComplete | src/py7dtd/bots/crack_passcode.py:177-181 | every string over `chars` with a length in `min..max` is a candidate |
| CrackPasscodeBot.InitArgs | src/py7dtd/bots/crack_passcode.py:50-76 | rejects, in this order and each exactly when reached, max > 20, min <= 0, both methods, and dict with a missing file; on success exactly one method holds and neither given means dict |
| CrackPasscodeBot.DefaultMethodIsDict | src/py7dtd/bots/crack_passcode.py:71-76 | valid lengths with no method chosen select the dictionary attack, whatever the file system says |
| CrackPasscodeBot.DefaultDictionaryMissing | src/py7dtd/bots/crack_passcode.py:65-76 | with no method given, a missing default dictionary passes `init_args` and fails only when `crack_dict` opens it |
| CrackPasscodeBot.CyrillicAsWrittenMissesEr | src/py7dtd/bots/crack_passcode.py:41-42 | the two Cyrillic sets as written hold 32 letters and lack р / Р |
| CrackPasscodeBot.CyrillicIsWholeAlphabet | src/py7dtd/bots/crack_passcode.py:41-42 | the corrected sets hold exactly the 33 letters а..я with ё (and А..Я with Ё) |
| CrackPasscodeBot.IntendedRestoresEr | src/py7dtd/bots/crack_passcode.py:36-43 | the intended entries differ from the written ones only in the Cyrillic sets, by р / Р inserted after п / П |
| CrackPasscodeBot.NoSetHoldsEr | src/py7dtd/bots/crack_passcode.py:36-43 | no entry of `CHARACTERS_SETS` as written holds р or Р |
| CrackPasscodeBot.LowerCyrillicBruteMissesEr | src/py7dtd/bots/crack_passcode.py:152-181 | `--brute --lowercyrillic --min 1 --max 1` tries exactly the 32 written letters, and never "р" |
| CrackPasscodeBot.SetNamed | src/py7dtd/bots/crack_passcode.py:36-43 | looking up a key of `CHARACTERS_SETS` gives the set with that key |
| CrackPasscodeBot.SetNamedFindsEveryKey | src/py7dtd/bots/crack_passcode.py:36-43 | every set is found under its own key |
| CrackPasscodeBot.NamedSetIsTheLookup | src/py7dtd/bots/crack_passcode.py:161-166 | each command-line attribute names the character set that the dictionary lookup finds for it |
| CrackPasscodeBot.Chosen | src/py7dtd/bots/crack_passcode.py:161-166 | a chosen set is one of the candidate sets whose flag is on |
| CrackPasscodeBot.ChosenMembers | src/py7dtd/bots/crack_passcode.py:161-166 | a set is chosen exactly when it is a candidate and its flag is on |
| CrackPasscodeBot.ScanIsChoice | src/py7dtd/bots/crack_passcode.py:161-166 | scanning attribute/value pairs that name sets selects exactly the sets whose flags are on, in scan order |
| CrackPasscodeBot.Namespace | src/py7dtd/bots/crack_passcode.py:161-166 | `vars(args).items()` lists all sixteen attributes in declaration order, each with its Python truthiness |
| CrackPasscodeBot.Selected | src/py7dtd/bots/crack_passcode.py:161-166 | the scan selects a set exactly when some truthy attribute's name is that set's key |
| CrackPasscodeBot.SelectedInAttributeOrder | src/py7dtd/bots/crack_passcode.py:161-166 | without `--allcharacters` the sets are the flagged ones in the parser's attribute order (digits, lower, upper, lowercyrillic, uppercyrillic, special) |
| CrackPasscodeBot.AllCharactersInDeclarationOrder | src/py7dtd/bots/crack_passcode.py:156-159 | with `--allcharacters` all six sets are used in declaration order |
| CrackPasscodeBot.SelectedSets | src/py7dtd/bots/crack_passcode.py:154-166 | `--allcharacters` selects all six sets in declaration order; otherwise the flagged sets in the parser's flag order |
| CrackPasscodeBot.AllowedChars | src/py7dtd/bots/crack_passcode.py:154-172 | the alphabet is never empty and, as written, never holds р or Р |
| CrackPasscodeBot.AllowedCharsFallback | src/py7dtd/bots/crack_passcode.py:168-172 | the alphabet is never empty; it is digits + lowercase exactly when no set was selected, otherwise the selected sets as written, concatenated |
| CrackPasscodeBot.BruteCodes | src/py7dtd/bots/crack_passcode.py:177-181 | every brute-force code has a length in `min..max`, uses only allowed characters, and so never holds р or Р |
| CrackPasscodeBot.FlagOrderDiffersFromDeclarationOrder | src/py7dtd/bots/crack_passcode.py:156-166 | setting all six flags by hand yields a differently ordered alphabet from `--allcharacters` |
| CrackPasscodeBot.KeptLines | src/py7dtd/bots/crack_passcode.py:204-208 | the kept lines are a suffix of the file, the whole file once the resume line is reached |
| CrackPasscodeBot.DictResume | src/py7dtd/bots/crack_passcode.py:204-208 | the line-by-line resume filter, started at any line number, keeps exactly the suffix of the file from line `resumedict` on (all of it when `resumedict` is at most the starting number), in order |
| CrackPasscodeBot.DictCodes | src/py7dtd/bots/crack_passcode.py:199-208 | the tried dictionary codes are the stripped lines, skipping the lines numbered below `resumedict` |
| CrackPasscodeBot.Recent | src/py7dtd/bots/crack_passcode.py:182-184 | the last min(5, n) codes of the history, in order |
| CrackPasscodeBot.RememberKeepsRecent | src/py7dtd/bots/crack_passcode.py:182-184 | appending then dropping the oldest over five keeps exactly the last five codes |
| CrackPasscodeBot.RecentOfRecent | src/py7dtd/bots/crack_passcode.py:209-211 | forgetting old codes early does not change the final memory |
| CrackPasscodeBot.Attempt | src/py7dtd/bots/crack_passcode.py:182-186 | one attempt whose sleep succeeds: attempts rise by one, tries only on a wrong code, a correct code (or ESC) stops, the code is remembered; `Attack` handles the failing sleep before it |
| CrackPasscodeBot.CheckStopped | src/py7dtd/bots/crack_passcode.py:259-275 | stop exactly when a truthy limit is reached, a truthy timeout has elapsed, or the bot is stopped; the watcher is shut down exactly in the first two cases |
| CrackPasscodeBot.Attack | src/py7dtd/bots/crack_passcode.py:177-194 | the tried codes are a prefix of the candidates; attempts count them, tries count the wrong ones, memory holds the last five; the final answer is `check_stopped` of the state after the last attempt, and stopping early happens only through it; a negative delay fails the first sleep with the first code remembered and nothing tried |
| CrackPasscodeBot.AttackFromFresh | src/py7dtd/bots/crack_passcode.py:177-194 | started from the freshly built bot (no memory, zero counters), the attempt and try counters and the five-code memory describe exactly the codes the loop tried |
| CrackPasscodeBot.NoAttemptAfterStop | src/py7dtd/bots/crack_passcode.py:192-194 | every tried code but the last was followed by a negative stop check, evaluated on the state after that attempt |
| CrackPasscodeBot.CorrectCodeIsLast | src/py7dtd/bots/crack_passcode.py:235-241 | once a correct code is found, no further code is tried |
| CrackPasscodeBot.CrackBrute | src/py7dtd/bots/crack_passcode.py:152-194 | `crack_brute` tries a prefix of the brute-force codes, and fails at the first sleep exactly when the delay is negative and there is at least one candidate (`min <= max`) |
| CrackPasscodeBot.CrackDict | src/py7dtd/bots/crack_passcode.py:196-223 | `crack_dict` tries a prefix of the dictionary codes, and fails at the first sleep exactly when the delay is negative and a line is kept |
| CrackPasscodeBot.Run | src/py7dtd/bots/crack_passcode.py:102-150 | an invalid command line is rejected; nothing starts without the window and dialog; a dictionary attack whose file cannot be opened fails with the open error; otherwise one attack runs |
| CrackPasscodeBot.RunShape | src/py7dtd/bots/crack_passcode.py:139-148 | a finished run tried a prefix of the brute candidates or of the dictionary codes, with counters and memory matching the tried codes; a negative delay fails before the first code is typed |
| CrackPasscodeScript.ChooseMethod | src/py7dtd/scripts/crack_passcode.py:50-64 | both methods are rejected, dict without a path is rejected, and no method selects brute force |
| CrackPasscodeScript.PointerCenter | src/py7dtd/scripts/crack_passcode.py:74-77 | the script's inline pointer centre equals the window handler's absolute centre |
| CrackPasscodeScript.AttemptActions | src/py7dtd/scripts/crack_passcode.py:89-96 | one attempt right-clicks, then types the code, then types "~" |
| CrackPasscodeScript.Attempted | src/py7dtd/scripts/crack_passcode.py:98-100 | the number of codes typed is at most the number available, and at least one when any is |
| CrackPasscodeScript.TypeCodes | src/py7dtd/scripts/crack_passcode.py:86-114 | the loop ends exhausted, at the limit, or at a failing sleep, the last exactly when the delay is negative and there is a code; that failure types and counts nothing |
| CrackPasscodeScript.TypeCodesShape | src/py7dtd/scripts/crack_passcode.py:86-114 | with a usable delay the loop types the first `Attempted` codes in order, counts each, and exits on the limit exactly when a truthy limit is reached; a negative delay stops at the first sleep |
| CrackPasscodeScript.BruteCodes | src/py7dtd/scripts/crack_passcode.py:84-87 | `product` raises exactly for a negative minimum within a non-empty range; otherwise the candidates of lengths min..max |
| CrackPasscodeScript.Run | src/py7dtd/scripts/crack_passcode.py:50-114 | an argument error exactly when the method choice fails; otherwise the pointer is centred first |
| CrackPasscodeScript.BruteRun | src/py7dtd/scripts/crack_passcode.py:81-100 | a brute run types the leading candidates over letters and digits, stopping only at the limit; with a negative delay it fails at the first sleep, having only centred the pointer |
| CrackPasscodeScript.DictRun | src/py7dtd/scripts/crack_passcode.py:81-114 | a dictionary run types the stripped lines in order up to the limit; with a negative delay and a line to type it right-clicks once and fails at the next sleep |
| CrackPasscodeScript.NegativeMinCrashes | src/py7dtd/scripts/crack_passcode.py:86-87 | a negative minimum length ends the run after centring, before any attempt |
| CrackPasscodeScript.NegativeLimitTriesOnce | src/py7dtd/scripts/crack_passcode.py:98-100 | a negative limit is truthy and already met, so exactly one code is typed (none when the delay is negative) |
| CrackPasscodeScript.KeystrokesOfAttempt | src/py7dtd/scripts/crack_passcode.py:93-95 | an attempt sends exactly the code, then "~" |
| CrackPasscodeScript.KeystrokesOfAttempts | src/py7dtd/scripts/crack_passcode.py:93-95 | the keystrokes of a run alternate: each candidate, then "~" |
| CrackPasscodeScript.BruteAlphabet | src/py7dtd/scripts/crack_passcode.py:84 | the script's alphabet is the 52 letters then the 10 digits |
| BlocksDetection.RFind | src/py7dtd/scripts/blocks_detection.py:47 | the index of the last occurrence, or -1 |
| BlocksDetection.SplitExt | src/py7dtd/scripts/blocks_detection.py:47 | root and extension reassemble the path; there is an extension exactly when the last path component has a dot preceded by a non-dot, and it then starts at the last dot; it is one dot and then no dot or separator |
| BlocksDetection.NoExtensionWithoutDot | src/py7dtd/scripts/blocks_detection.py:47 | a path whose last component has no dot, or only leading dots, has no extension |
| BlocksDetection.SplitExtOfName | src/py7dtd/scripts/blocks_detection.py:45-48 | `name.ext` splits into `name` and `.ext` |
| BlocksDetection.InitArgs | src/py7dtd/scripts/blocks_detection.py:22-50 | each exit happens exactly in its case (no block kind, no input, missing file, not an image); the output name is the explicit one, else the input's root plus `_output.png` |
| BlocksDetection.Matches | src/py7dtd/scripts/blocks_detection.py:71-80 | each of the three block colours matches exactly when its kind is selected (topsoil or dirt for the one they share); no other colour matches |
| BlocksDetection.Recolour | src/py7dtd/scripts/blocks_detection.py:64-82 | black is never changed; any change is to red; the result is red exactly when the pixel was red or matches a selected colour |
| BlocksDetection.NeitherBlackNorRedMatches | src/py7dtd/scripts/blocks_detection.py:66-81 | black and red are not block colours |
| BlocksDetection.RecolourIdempotent | src/py7dtd/scripts/blocks_detection.py:66-82 | recolouring a pixel twice is recolouring it once |
| BlocksDetection.TopsoilIsDirt | src/py7dtd/scripts/blocks_detection.py:76-77 | `--topsoil` and `--dirt` paint the same pixels |
| BlocksDetection.Recoloured | src/py7dtd/scripts/blocks_detection.py:61-82 | the pass keeps the grid's shape and recolours every pixel on its own |
| BlocksDetection.RecolouredIdempotent | src/py7dtd/scripts/blocks_detection.py:61-82 | running the pass on its own output changes nothing |
| BlocksDetection.Analyze | src/py7dtd/scripts/blocks_detection.py:61-82 | the nested loops produce exactly the reference pass: every pixel recoloured by the per-pixel rule, the grid's shape unchanged |
| BlocksDetection.IntToSignedShort | src/py7dtd/scripts/blocks_detection.py:154-155 | the result is a 16-bit signed value congruent to the input modulo 65536 |
| BlocksDetection.SignedShortLow16 | src/py7dtd/scripts/blocks_detection.py:154-155 | only the low 16 bits of the input matter |
| BlocksDetection.SignedShortOfUnsigned | src/py7dtd/scripts/blocks_detection.py:154-155 | on 0..65535 the result is the value below 32768 and the value minus 65536 above it |
| BlocksDetection.SignedShortUnique | src/py7dtd/scripts/blocks_detection.py:154-155 | the result is the only value in [-32768, 32767] congruent to the input |

## Left out

- Win32 input injection (`commands_controller.py`), focus changes, COM `SendKeys`, the clipboard and
  `send_message_to_window` are not modelled as effects. Moves, clicks and typed text are recorded as
  trace actions.
- Screen capture, `locateOnScreen`, the grey-pixel "correct passcode" probe, file existence, the image-type
  probe and the detector's inference are OS or library calls. They are parameters of the model.
- Model loading and training (`ai/training.py`) are third-party ML code.
- Threads, daemon flags and `PumpMessages` are concurrency. The key watcher's events are delivered per
  tick, and the bot's asynchronous `stop` is an `escPressed` field of each observation.
- Floating-point delays (`delay / 1000`) are not modelled. Sleeps carry the integer millisecond argument.
  `delay / 1000` is negative exactly when `delay` is, and that is the case in which `time.sleep` raises,
  so the failing sleep is modelled on the integer. The grey-submit scaling of the bot is left out for the
  same reason.
- The wall clock is an abstract integer `elapsed` per attempt.
- Logging, the progress bar, image load and save, and the argparse plumbing are not modelled. Only the
  order of the parsed attributes is kept, because the character-set scan depends on it.
- `blocks_detection.test()` is not modelled: it is float and raw-file code. `main()` returns right after
  calling it, so the argument-driven scanner is never reached from `main`. Its methods are modelled anyway.
- The bot imports its window helpers from an `iocontroller` package that is not part of this model. Its
  `select_window` is the oracle `windowFound`. Its four-argument `get_absolute_window_center` is not
  modelled, so no pointer centre is computed for the bot.
- The `is_enter_password_dialog_open` check is the oracle `dialogOpen`.
- The script's window lookup is not modelled. Its rectangle is an input. The script never checks for
  handle 0, and how the Win32 calls fail on it is not modelled.
- The dictionary file's open failure is an input. In the script, `dictionary: None` ends the session with
  `OpenError`. In the bot, `lines: None` ends the run with `DictionaryUnreadable`.
- BlocksDetection.SplitExt: follows the Windows `os.path` (`ntpath`), where both `\` and `/` separate
  components, because the project targets Windows. On POSIX `\` is an ordinary character, so
  `os.path.splitext("a.b\\c")` gives `("a", ".b\\c")` there, while the model gives `("a.b\\c", "")`.
- Non-RGBA pixel formats are left out. A pixel is a 4-tuple, as the comparisons in `analyze` assume.
- The auto-shooting loop is infinite in the source. The model observes it over a finite sequence of ticks.
- `constants.py` holds only literals. The window name and the "zombie" label are used; the field-of-view
  constants are unused by the source.

## Findings

| source | as written | input that shows it | evidently intended | confidence | as-written member | corrected member |
|---|---|---|---|---|---|---|
| src/py7dtd/bots/crack_passcode.py:41-42 | the lower and upper Cyrillic sets list 32 letters each, skipping р (U+0440) and Р (U+0420) | passcode "р" with `--lowercyrillic`: never generated | the full 33-letter Russian alphabet а..я with ё, and А..Я with Ё | high, not executed | CrackPasscodeBot.LowerCyrillicBruteMissesEr | CrackPasscodeBot.CyrillicIsWholeAlphabet |

=== FILE: arithmetic.dfy ===
/** Euclidean division facts shared by the enumeration order and the 16-bit reinterpretation. */
module Arithmetic {

  /** Quotient and remainder are determined by any decomposition with the remainder in range. */
  lemma DivModUnique(a: int, n: int, q: int, r: int)
    requires n > 0 && 0 <= r < n && a == q * n + r
    ensures a / n == q && a % n == r
  {
    var q', r' := a / n, a % n;
    assert a == q' * n + r';
    assert (q - q') * n == r' - r;
    if q > q' {
      MulAtLeast(q - q', n);
    } else if q < q' {
      MulAtLeast(q' - q, n);
    }
  }

  lemma MulAtLeast(x: int, n: int)
    requires x >= 1 && n > 0
    ensures x * n >= n
  {
  }
}

=== FILE: auto_shooting.dfy ===
/**
 * The zombie-shooting bot of `bots/auto_shooting.py`: select the application window, then repeatedly
 * capture the window, group the detections, pick one zombie box, move the pointer by the pixel difference
 * between the box centre and the window centre, click, and sleep, until the ESC watcher sets the stop flag.
 * Screen capture and inference are inputs; pointer injection is recorded as actions in a trace.
 */
module AutoShooting {
  import opened Geometry
  import opened WindowHandler
  import opened Wrappers
  import Detection
  import KeyWatcher

  /** `APPLICATION_WINDOW_NAME` of `constants.py`. */
  const ApplicationWindowName := "7 Days To Die"

  /** The label the bot shoots at. */
  const Zombie := "zombie"

  /** Observable effects of the loop, in order. */
  datatype Action =
    | Capture(bbox: Rect)         // `ImageGrab.grab(self.dimensions)`
    | MoveRel(dx: int, dy: int)   // `MoveMouseRel(rel_move[0], rel_move[1])`
    | LeftClick                   // `LeftMouseClick()`
    | Sleep(ms: int)              // `time.sleep(self.args.delay / 1000)`

  /**
   * What the selection at lines 75-85 returns: the LAST box whose area is strictly greater than the FIRST
   * box's area, or the first box when there is none. The reference area is never updated, so this is not
   * the box of maximal area in general.
   */
  predicate IsNearest(boxes: seq<Box>, k: int) {
    && 0 <= k < |boxes|
    && (k == 0 || Area(boxes[k]) > Area(boxes[0]))
    && forall j :: k < j < |boxes| ==> Area(boxes[j]) <= Area(boxes[0])
  }

  /** At most one index is selected. */
  lemma NearestUnique(boxes: seq<Box>, a: int, b: int)
    requires IsNearest(boxes, a) && IsNearest(boxes, b)
    ensures a == b
  {
  }

  /** Reference definition: search backwards from `j` for a box larger than the first one. */
  function LastLargerThanFirst(boxes: seq<Box>, j: nat): (k: nat)
    requires j < |boxes|
    requires forall i :: j < i < |boxes| ==> Area(boxes[i]) <= Area(boxes[0])
    ensures IsNearest(boxes, k)
    decreases j
  {
    if j == 0 || Area(boxes[j]) > Area(boxes[0]) then j else LastLargerThanFirst(boxes, j - 1)
  }

  function NearestIndex(boxes: seq<Box>): (k: nat)
    requires |boxes| > 0
    ensures IsNearest(boxes, k)
    ensures Area(boxes[k]) >= Area(boxes[0])
  {
    LastLargerThanFirst(boxes, |boxes| - 1)
  }

  /**
   * The selection loop as written: start from the first box; when there is more than one box, compare the
   * area of every box (the first included) against the first box's area and keep the last one that is
   * strictly larger. `comparisons` counts the area comparisons made.
   */
  method SelectNearest(boxes: seq<Box>) returns (nearest: Box, index: nat, comparisons: nat)
    requires |boxes| > 0
    ensures IsNearest(boxes, index) && nearest == boxes[index]
    ensures comparisons == (if |boxes| > 1 then |boxes| else 0)
  {
    nearest := boxes[0];
    index := 0;
    comparisons := 0;
    if |boxes| > 1 {
      var nearestArea := Area(nearest);
      for i := 0 to |boxes|
        invariant 0 <= index < |boxes| && nearest == boxes[index]
        invariant index == 0 || (index < i && Area(boxes[index]) > nearestArea)
        invariant forall j :: index < j < i ==> Area(boxes[j]) <= nearestArea
        invariant nearestArea == Area(boxes[0])
        invariant comparisons == i
      {
        comparisons := comparisons + 1;
        var currentArea := Area(boxes[i]);
        if currentArea > nearestArea {
          nearest := boxes[i];
          index := i;
        }
      }
    }
  }

  /** With two boxes a strictly larger second box wins and a tie keeps the first. */
  lemma TwoBoxes(a: Box, b: Box)
    ensures NearestIndex([a, b]) == 1 <==> Area(b) > Area(a)
    ensures NearestIndex([a, b]) == 0 <==> Area(b) <= Area(a)
  {
  }

  /**
   * Areas 100, 1200, 500: the third box is chosen although the second is larger, because every box is
   * compared with the first box only.
   */
  lemma SelectionIsNotMaximal()
    ensures var boxes := [Box(0, 0, 10, 10), Box(0, 0, 30, 40), Box(0, 0, 20, 25)];
      NearestIndex(boxes) == 2 && Area(boxes[1]) > Area(boxes[2])
  {
    var boxes := [Box(0, 0, 10, 10), Box(0, 0, 30, 40), Box(0, 0, 20, 25)];
    assert IsNearest(boxes, 2);
    NearestUnique(boxes, 2, NearestIndex(boxes));
  }

  /** `rel_move`: the displacement that carries the pointer from `pointer` onto `target`. */
  function RelMove(target: Point, pointer: Point): (m: Point)
    ensures pointer.x + m.x == target.x && pointer.y + m.y == target.y
    ensures m == Point(0, 0) <==> target == pointer
  {
    Point(target.x - pointer.x, target.y - pointer.y)
  }

  /** Lines 75-100 once a zombie list exists: select, aim at the centre, move, click. */
  function Shoot(zombies: seq<Box>, pointer: Point): (t: seq<Action>)
    requires |zombies| > 0
    ensures |t| == 2 && t[0].MoveRel? && t[1] == LeftClick
    ensures forall k :: IsNearest(zombies, k) ==>
      t[0] == MoveRel(Center(zombies[k]).x - pointer.x, Center(zombies[k]).y - pointer.y)
  {
    var target := Center(zombies[NearestIndex(zombies)]);
    var m := RelMove(target, pointer);
    assert forall k :: IsNearest(zombies, k) ==> k == NearestIndex(zombies) by {
      forall k | IsNearest(zombies, k) ensures k == NearestIndex(zombies) {
        NearestUnique(zombies, k, NearestIndex(zombies));
      }
    }
    [MoveRel(m.x, m.y), LeftClick]
  }

  /**
   * The `while` body up to the sleep: capture the window, group the detector's output, and shoot when
   * "zombie" is a key of the grouping.
   */
  function Pass(dims: Rect, pointer: Point, detections: seq<Detection.Detection>): (t: seq<Action>)
    ensures |t| >= 1 && t[0] == Capture(dims)
    ensures forall i :: 0 <= i < |t| ==> !t[i].Sleep?
    ensures Zombie !in Detection.Names(detections) <==> t == [Capture(dims)]
    ensures Zombie in Detection.Names(detections) ==>
      |t| == 3 && t[2] == LeftClick &&
      forall k :: IsNearest(Detection.BoxesOf(detections, Zombie), k) ==>
        var c := Center(Detection.BoxesOf(detections, Zombie)[k]);
        t[1] == MoveRel(c.x - pointer.x, c.y - pointer.y)
  {
    var entities := Detection.Group(detections);
    var shots := if Zombie in entities then Shoot(entities[Zombie], pointer) else [];
    [Capture(dims)] + shots
  }

  /** One whole pass of the `while` body: the pass, then a sleep of `delayMs` milliseconds. */
  function Iteration(dims: Rect, pointer: Point, detections: seq<Detection.Detection>, delayMs: int)
    : (t: seq<Action>)
    ensures |t| >= 2 && t[0] == Capture(dims) && t[|t| - 1] == Sleep(delayMs)
    ensures Zombie !in Detection.Names(detections) <==> t == [Capture(dims), Sleep(delayMs)]
    ensures Zombie in Detection.Names(detections) ==>
      |t| == 4 && t[2] == LeftClick &&
      forall k :: IsNearest(Detection.BoxesOf(detections, Zombie), k) ==>
        var c := Center(Detection.BoxesOf(detections, Zombie)[k]);
        t[1] == MoveRel(c.x - pointer.x, c.y - pointer.y)
  {
    Pass(dims, pointer, detections) + [Sleep(delayMs)]
  }

  /** What happens between two checks of the loop head: keys reach the watcher, then the body may run. */
  datatype Tick = Tick(keys: seq<int>, detections: seq<Detection.Detection>)

  /**
   * `while not self.stopped`, observed over the finite sequence of ticks. The stop flag is the watcher's
   * `stopRequested`: the watcher's `stop_func` is the bot's `stop`. A negative delay makes `time.sleep`
   * raise `ValueError` at the end of the first pass, which ends `start`.
   */
  function Loop(w: KeyWatcher.Watcher, dims: Rect, pointer: Point, delayMs: int, ticks: seq<Tick>)
    : (t: seq<Action>)
    ensures Iterations(t) <= |ticks|
    ensures delayMs < 0 ==> Iterations(t) <= 1 && forall i :: 0 <= i < |t| ==> !t[i].Sleep?
    ensures |t| > 0 ==> t[0] == Capture(dims)
    decreases |ticks|
  {
    if |ticks| == 0 then []
    else
      var w' := KeyWatcher.Deliver(w, ticks[0].keys);
      if w'.stopRequested then []
      else if delayMs < 0 then
        PassShape(dims, pointer, ticks[0].detections);
        Pass(dims, pointer, ticks[0].detections)
      else
        var it := Iteration(dims, pointer, ticks[0].detections, delayMs);
        var rest := Loop(w', dims, pointer, delayMs, ticks[1..]);
        OneCapturePerIteration(dims, pointer, ticks[0].detections, delayMs);
        IterationsAppend(it, rest);
        it + rest
  }

  /**
   * `start`: select the window (an error ends the run before the loop), compute the relative window centre
   * once, create the watcher, then loop.
   */
  function Start(findWindow: string -> Handle, getWindowRect: Handle -> Rect, delayMs: int, ticks: seq<Tick>)
    : (t: seq<Action>)
    ensures findWindow(ApplicationWindowName) == 0 ==> t == []
    ensures Iterations(t) <= |ticks|
    ensures forall i :: 0 <= i < |t| && t[i].Capture? ==> findWindow(ApplicationWindowName) != 0
  {
    match SelectWindow(ApplicationWindowName, findWindow, getWindowRect)
    case Err(_) => []
    case Ok(dims) => Loop(KeyWatcher.Create(), dims, RelativeCenter(dims), delayMs, ticks)
  }

  /** Every pointer move is immediately followed by a left click. */
  predicate MovesAreClicked(t: seq<Action>) {
    forall i :: 0 <= i < |t| && t[i].MoveRel? ==> i + 1 < |t| && t[i + 1] == LeftClick
  }

  /** Every capture is of the rectangle `dims`. */
  predicate CapturesOf(t: seq<Action>, dims: Rect) {
    forall i :: 0 <= i < |t| && t[i].Capture? ==> t[i].bbox == dims
  }

  /** Number of loop iterations in a trace (each iteration captures exactly once). */
  function Iterations(t: seq<Action>): nat {
    if |t| == 0 then 0 else (if t[0].Capture? then 1 else 0) + Iterations(t[1..])
  }

  lemma {:induction false} IterationsAppend(a: seq<Action>, b: seq<Action>)
    ensures Iterations(a + b) == Iterations(a) + Iterations(b)
    decreases |a|
  {
    if |a| == 0 {
      assert a + b == b;
    } else {
      assert (a + b)[1..] == a[1..] + b;
      IterationsAppend(a[1..], b);
    }
  }

  /** A pass captures once, clicks after its move, and captures only `dims`. */
  lemma PassShape(dims: Rect, pointer: Point, detections: seq<Detection.Detection>)
    ensures Iterations(Pass(dims, pointer, detections)) == 1
    ensures MovesAreClicked(Pass(dims, pointer, detections))
    ensures CapturesOf(Pass(dims, pointer, detections), dims)
  {
    var t := Pass(dims, pointer, detections);
    assert Iterations(t[|t|..]) == 0;
    if |t| == 3 {
      assert t[2..][1..] == t[3..];
      assert Iterations(t[2..]) == 0;
      assert t[1..][1..] == t[2..];
      assert Iterations(t[1..]) == 0;
    } else {
      assert t[1..] == t[|t|..];
    }
  }

  lemma OneCapturePerIteration(dims: Rect, pointer: Point, detections: seq<Detection.Detection>, delayMs: int)
    ensures Iterations(Iteration(dims, pointer, detections, delayMs)) == 1
    ensures MovesAreClicked(Iteration(dims, pointer, detections, delayMs))
    ensures CapturesOf(Iteration(dims, pointer, detections, delayMs), dims)
  {
    var p := Pass(dims, pointer, detections);
    var s := [Sleep(delayMs)];
    PassShape(dims, pointer, detections);
    assert Iterations(s) == 0 by { assert s[1..] == []; }
    IterationsAppend(p, s);
    MovesAreClickedAppend(p, s);
    CapturesOfAppend(p, s, dims);
  }

  lemma MovesAreClickedAppend(a: seq<Action>, b: seq<Action>)
    requires MovesAreClicked(a) && MovesAreClicked(b)
    ensures MovesAreClicked(a + b)
  {
    forall i | 0 <= i < |a + b| && (a + b)[i].MoveRel? ensures i + 1 < |a + b| && (a + b)[i + 1] == LeftClick {
      if i < |a| {
        assert a[i].MoveRel?;
      } else {
        assert (a + b)[i] == b[i - |a|];
      }
    }
  }

  lemma CapturesOfAppend(a: seq<Action>, b: seq<Action>, dims: Rect)
    requires CapturesOf(a, dims) && CapturesOf(b, dims)
    ensures CapturesOf(a + b, dims)
  {
    forall i | 0 <= i < |a + b| && (a + b)[i].Capture? ensures (a + b)[i].bbox == dims {
      if i < |a| {
        assert (a + b)[i] == a[i];
      } else {
        assert (a + b)[i] == b[i - |a|];
      }
    }
  }

  lemma {:induction false} LoopShape(w: KeyWatcher.Watcher, dims: Rect, pointer: Point, delayMs: int, ticks: seq<Tick>)
    ensures MovesAreClicked(Loop(w, dims, pointer, delayMs, ticks))
    ensures CapturesOf(Loop(w, dims, pointer, delayMs, ticks), dims)
    decreases |ticks|
  {
    if |ticks| > 0 {
      var w' := KeyWatcher.Deliver(w, ticks[0].keys);
      if !w'.stopRequested && delayMs < 0 {
        PassShape(dims, pointer, ticks[0].detections);
      } else if !w'.stopRequested {
        var it := Iteration(dims, pointer, ticks[0].detections, delayMs);
        var rest := Loop(w', dims, pointer, delayMs, ticks[1..]);
        LoopShape(w', dims, pointer, delayMs, ticks[1..]);
        OneCapturePerIteration(dims, pointer, ticks[0].detections, delayMs);
        MovesAreClickedAppend(it, rest);
        CapturesOfAppend(it, rest, dims);
      }
    }
  }

  /**
   * Each tick whose loop-head check finds no stop request runs exactly one iteration; with a negative delay
   * the first iteration is also the last.
   */
  lemma {:induction false} NoEscEveryTickRuns(w: KeyWatcher.Watcher, dims: Rect, pointer: Point, delayMs: int, ticks: seq<Tick>)
    requires !w.stopRequested
    requires forall k :: 0 <= k < |ticks| ==> KeyWatcher.EscKeyId !in ticks[k].keys
    ensures Iterations(Loop(w, dims, pointer, delayMs, ticks)) == if delayMs >= 0 || |ticks| == 0 then |ticks| else 1
    decreases |ticks|
  {
    if |ticks| > 0 && delayMs < 0 {
      KeyWatcher.DeliverWithoutEsc(w, ticks[0].keys);
      PassShape(dims, pointer, ticks[0].detections);
    } else if |ticks| > 0 {
      KeyWatcher.DeliverWithoutEsc(w, ticks[0].keys);
      var w' := KeyWatcher.Deliver(w, ticks[0].keys);
      NoEscEveryTickRuns(w', dims, pointer, delayMs, ticks[1..]);
      OneCapturePerIteration(dims, pointer, ticks[0].detections, delayMs);
      IterationsAppend(Iteration(dims, pointer, ticks[0].detections, delayMs),
                       Loop(w', dims, pointer, delayMs, ticks[1..]));
    }
  }

  /**
   * Cooperative cancellation: once ESC reaches the watcher during tick `k`, the loop head of tick `k`
   * sees the stop flag and nothing after it happens.
   */
  lemma {:induction false} EscEndsTheLoop(w: KeyWatcher.Watcher, dims: Rect, pointer: Point, delayMs: int,
                                         ticks: seq<Tick>, k: nat)
    requires KeyWatcher.Consistent(w)
    requires k < |ticks| && KeyWatcher.EscKeyId in ticks[k].keys
    ensures Loop(w, dims, pointer, delayMs, ticks) == Loop(w, dims, pointer, delayMs, ticks[..k])
    decreases k
  {
    var w' := KeyWatcher.Deliver(w, ticks[0].keys);
    if k == 0 {
      if w.hooked {
        KeyWatcher.DeliverEsc(w, ticks[0].keys);
      }
    } else if !w'.stopRequested {
      KeyWatcher.DeliverConsistent(w, ticks[0].keys);
      EscEndsTheLoop(w', dims, pointer, delayMs, ticks[1..], k - 1);
      assert ticks[..k][1..] == ticks[1..][..k - 1];
    }
  }

  /**
   * A negative delay: unless ESC arrives first, the run is the first pass alone — captured, perhaps shot,
   * never slept — since `time.sleep` raises on the negative argument.
   */
  lemma NegativeDelayEndsAfterFirstPass(w: KeyWatcher.Watcher, dims: Rect, pointer: Point, delayMs: int, ticks: seq<Tick>)
    requires delayMs < 0 && |ticks| > 0 && !KeyWatcher.Deliver(w, ticks[0].keys).stopRequested
    ensures Loop(w, dims, pointer, delayMs, ticks) == Pass(dims, pointer, ticks[0].detections)
    ensures Iterations(Loop(w, dims, pointer, delayMs, ticks)) == 1
  {
    PassShape(dims, pointer, ticks[0].detections);
  }

  /** Without the window, the loop is never entered: nothing is captured, moved or clicked. */
  lemma NoWindowNoActions(findWindow: string -> Handle, getWindowRect: Handle -> Rect, delayMs: int, ticks: seq<Tick>)
    requires findWindow(ApplicationWindowName) == 0
    ensures Start(findWindow, getWindowRect, delayMs, ticks) == []
  {
  }

  /**
   * A run captures only the rectangle found at start-up (it is never re-queried), clicks after every
   * move, and runs one iteration per tick until the first ESC — only the first, when the delay is negative.
   */
  lemma StartShape(findWindow: string -> Handle, getWindowRect: Handle -> Rect, delayMs: int, ticks: seq<Tick>)
    requires findWindow(ApplicationWindowName) != 0
    ensures var t := Start(findWindow, getWindowRect, delayMs, ticks);
      && MovesAreClicked(t)
      && CapturesOf(t, getWindowRect(findWindow(ApplicationWindowName)))
      && ((forall k :: 0 <= k < |ticks| ==> KeyWatcher.EscKeyId !in ticks[k].keys) ==>
            Iterations(t) == if delayMs >= 0 || |ticks| == 0 then |ticks| else 1)
  {
    var dims := getWindowRect(findWindow(ApplicationWindowName));
    var pointer := RelativeCenter(dims);
    LoopShape(KeyWatcher.Create(), dims, pointer, delayMs, ticks);
    if forall k :: 0 <= k < |ticks| ==> KeyWatcher.EscKeyId !in ticks[k].keys {
      NoEscEveryTickRuns(KeyWatcher.Create(), dims, pointer, delayMs, ticks);
    }
  }

  /** Scenario: zombies of area 100 and 1200 with the pointer at (960, 540): aim at (15, 20). */
  lemma ShootScenario()
    ensures Shoot([Box(0, 0, 10, 10), Box(0, 0, 30, 40)], Point(960, 540)) == [MoveRel(15 - 960, 20 - 540), LeftClick]
  {
    TwoBoxes(Box(0, 0, 10, 10), Box(0, 0, 30, 40));
  }
}

=== FILE: blocks_detection.dfy ===
/**
 * The map scanner of `scripts/blocks_detection.py`: argument checks with the output-name default, the
 * per-pixel recolouring pass of `analyze`, and `int_to_signed_short`. File existence and the image-format
 * probe are oracles; the image is its pixel grid, indexed `[x][y]` as `pixels[x, y]` is.
 */
module BlocksDetection {
  import opened Wrappers
  import opened Arithmetic

  /** The parsed command line. */
  datatype Args = Args(topsoil: bool, dirt: bool, gravel: bool, destroyedStone: bool,
                       input: Option<string>, output: Option<string>)

  /** The four `exit()` paths of `init_args`. */
  datatype InitError = NoBlocksSelected | NoInput | InputMissing | InvalidFormat

  /** Python truthiness of an optional string argument. */
  predicate Given(s: Option<string>) {
    s.Some? && |s.value| > 0
  }

  predicate AnyBlockSelected(args: Args) {
    args.topsoil || args.dirt || args.destroyedStone || args.gravel
  }

  /** Index of the last `c` in `p`, or -1 (`str.rfind`). */
  function RFind(p: string, c: char): (r: int)
    ensures -1 <= r < |p|
    ensures r >= 0 ==> p[r] == c
    ensures forall k :: r < k < |p| ==> p[k] != c
  {
    if |p| == 0 then -1
    else if p[|p| - 1] == c then |p| - 1
    else RFind(p[..|p| - 1], c)
  }

  predicate IsSep(c: char) {
    c == '\\' || c == '/'
  }

  /** Every character of `p[lo..hi]` is a dot. */
  predicate AllDots(p: string, lo: int, hi: int)
    requires 0 <= lo && hi <= |p|
  {
    forall k :: lo <= k < hi ==> p[k] == '.'
  }

  /** Index of the last `\\` or `/` in `p`, or -1: the last path component starts after it. */
  function LastSep(p: string): (r: int)
    ensures -1 <= r < |p|
    ensures r >= 0 ==> IsSep(p[r])
    ensures forall k :: r < k < |p| ==> !IsSep(p[k])
  {
    var slash, back := RFind(p, '/'), RFind(p, '\\');
    if slash > back then slash else back
  }

  /**
   * `os.path.splitext` on Windows: the extension starts at the last dot of the last path component,
   * unless everything before that dot in the component is dots (a leading-dot name has no extension).
   */
  function SplitExt(p: string): (r: (string, string))
    ensures r.0 + r.1 == p
    ensures |r.1| > 0 ==> r.1[0] == '.' && forall k :: 0 < k < |r.1| ==> r.1[k] != '.' && !IsSep(r.1[k])
    ensures |r.1| > 0 <==> exists i, j :: LastSep(p) < i < j < |p| && p[i] != '.' && p[j] == '.'
    ensures |r.1| > 0 ==> |r.0| == RFind(p, '.')
  {
    var sep := LastSep(p);
    var dot := RFind(p, '.');
    if dot > sep && !AllDots(p, sep + 1, dot) then
      assert p[..dot] + p[dot..] == p;
      var i :| sep + 1 <= i < dot && p[i] != '.';
      assert sep < i < dot < |p| && p[i] != '.' && p[dot] == '.';
      (p[..dot], p[dot..])
    else
      assert p + "" == p;
      assert !exists i, j :: sep < i < j < |p| && p[i] != '.' && p[j] == '.' by {
        forall i, j | sep < i < j < |p| && p[j] == '.' ensures p[i] == '.' {
          assert j <= dot;
        }
      }
      (p, "")
  }

  /** A name whose last component has no dot, or only leading dots, keeps its whole text as the root. */
  lemma NoExtensionWithoutDot(p: string)
    requires forall i, j :: LastSep(p) < i < j < |p| && p[j] == '.' ==> p[i] == '.'
    ensures SplitExt(p) == (p, "")
  {
    var r := SplitExt(p);
    assert |r.1| == 0;
    assert r.0 + r.1 == p;
    assert r.0 + r.1 == r.0;
  }

  /** A file name with a proper extension loses exactly that extension. */
  lemma SplitExtOfName(name: string, ext: string)
    requires |name| > 0 && name[0] != '.'
    requires forall k :: 0 <= k < |name| ==> !IsSep(name[k])
    requires forall k :: 0 <= k < |ext| ==> ext[k] != '.' && !IsSep(ext[k])
    ensures SplitExt(name + "." + ext) == (name, "." + ext)
  {
    var p := name + "." + ext;
    assert p[|name|] == '.';
    assert forall k :: |name| < k < |p| ==> p[k] == ext[k - |name| - 1];
    assert RFind(p, '.') == |name|;
    assert forall k :: 0 <= k < |name| ==> p[k] == name[k];
    assert RFind(p, '/') == -1 && RFind(p, '\\') == -1;
    assert p[0] != '.';
    assert p[..|name|] == name;
    assert p[|name|..] == "." + ext;
  }

  const OutputSuffix := "_output.png"

  /**
   * `init_args`: at least one block kind, then an input that is given, exists and is an image; the
   * output name is the explicit one or the input's root plus `_output.png`.
   */
  function InitArgs(args: Args, pathExists: string -> bool, isImage: string -> bool): (r: Result<string, InitError>)
    ensures r == Err(NoBlocksSelected) <==> !AnyBlockSelected(args)
    ensures r == Err(NoInput) <==> AnyBlockSelected(args) && !Given(args.input)
    ensures r == Err(InputMissing) <==> AnyBlockSelected(args) && Given(args.input) && !pathExists(args.input.value)
    ensures r == Err(InvalidFormat) <==>
      AnyBlockSelected(args) && Given(args.input) && pathExists(args.input.value) && !isImage(args.input.value)
    ensures r.Ok? && Given(args.output) ==> r.value == args.output.value
    ensures r.Ok? && !Given(args.output) ==>
      var root := SplitExt(args.input.value).0;
      r.value == root + OutputSuffix && root <= args.input.value
  {
    if !AnyBlockSelected(args) then Err(NoBlocksSelected)
    else if !Given(args.input) then Err(NoInput)
    else if !pathExists(args.input.value) then Err(InputMissing)
    else if !isImage(args.input.value) then Err(InvalidFormat)
    else if !Given(args.output) then Ok(SplitExt(args.input.value).0 + OutputSuffix)
    else Ok(args.output.value)
  }

  /** An RGBA pixel as `Image.load()` hands it out. */
  datatype Pixel = Pixel(r: int, g: int, b: int, a: int)

  const Black := Pixel(0, 0, 0, 255)
  const Red := Pixel(255, 0, 0, 255)
  const DestroyedStoneColour := Pixel(148, 148, 66, 255)
  const TopsoilDirtColour := Pixel(16, 49, 24, 255)
  const GravelColour := Pixel(156, 140, 123, 255)

  /**
   * The pixel has the colour of one of the selected block kinds: each of the three colours is painted
   * exactly when its block kind is selected, and no other colour ever is.
   */
  function Matches(args: Args, p: Pixel): (b: bool)
    ensures b ==> p == DestroyedStoneColour || p == TopsoilDirtColour || p == GravelColour
    ensures p == DestroyedStoneColour ==> (b <==> args.destroyedStone)
    ensures p == TopsoilDirtColour ==> (b <==> args.topsoil || args.dirt)
    ensures p == GravelColour ==> (b <==> args.gravel)
  {
    || (args.destroyedStone && p == DestroyedStoneColour)
    || ((args.topsoil || args.dirt) && p == TopsoilDirtColour)
    || (args.gravel && p == GravelColour)
  }

  /** The body of the inner loop of `analyze`: black is skipped, a match is painted red. */
  function Recolour(args: Args, p: Pixel): (q: Pixel)
    ensures p == Black ==> q == Black
    ensures q != p ==> q == Red
    ensures q == Red <==> p == Red || Matches(args, p)
  {
    if p == Black then p
    else if Matches(args, p) then Red
    else p
  }

  /** Black and red are not the colour of any block kind. */
  lemma NeitherBlackNorRedMatches(args: Args)
    ensures !Matches(args, Black) && !Matches(args, Red)
  {
  }

  /** Painting twice paints nothing more. */
  lemma RecolourIdempotent(args: Args, p: Pixel)
    ensures Recolour(args, Recolour(args, p)) == Recolour(args, p)
  {
    NeitherBlackNorRedMatches(args);
  }

  /** `--topsoil` and `--dirt` select the same colour, so either one paints the same pixels. */
  lemma TopsoilIsDirt(args: Args, p: Pixel)
    ensures Recolour(args.(topsoil := true, dirt := false), p) == Recolour(args.(topsoil := false, dirt := true), p)
  {
  }

  type Image = seq<seq<Pixel>>

  /** Reference result of the pass: every pixel recoloured in place, the grid's shape unchanged. */
  function Recoloured(args: Args, img: Image): (out: Image)
    ensures |out| == |img|
    ensures forall x :: 0 <= x < |img| ==> |out[x]| == |img[x]|
    ensures forall x, y :: 0 <= x < |img| && 0 <= y < |img[x]| ==> out[x][y] == Recolour(args, img[x][y])
  {
    seq(|img|, x requires 0 <= x < |img| => seq(|img[x]|, y requires 0 <= y < |img[x]| => Recolour(args, img[x][y])))
  }

  /** Running the pass on its own output changes nothing. */
  lemma RecolouredIdempotent(args: Args, img: Image)
    ensures Recoloured(args, Recoloured(args, img)) == Recoloured(args, img)
  {
    var once := Recoloured(args, img);
    var twice := Recoloured(args, once);
    forall x | 0 <= x < |img|
      ensures twice[x] == once[x]
    {
      forall y | 0 <= y < |img[x]|
        ensures twice[x][y] == once[x][y]
      {
        RecolourIdempotent(args, img[x][y]);
      }
    }
  }

  /** `analyze`: the two nested loops over columns and rows, writing red into a copy of the grid. */
  method Analyze(args: Args, img: Image) returns (out: Image)
    ensures out == Recoloured(args, img)
  {
    out := img;
    var x := 0;
    while x < |img|
      invariant 0 <= x <= |img| && |out| == |img|
      invariant forall i :: 0 <= i < |img| ==> |out[i]| == |img[i]|
      invariant forall i, j :: 0 <= i < x && 0 <= j < |img[i]| ==> out[i][j] == Recolour(args, img[i][j])
      invariant forall i :: x <= i < |img| ==> out[i] == img[i]
    {
      var column := img[x];
      var y := 0;
      while y < |column|
        invariant 0 <= y <= |column| == |img[x]|
        invariant forall j :: 0 <= j < y ==> column[j] == Recolour(args, img[x][j])
        invariant forall j :: y <= j < |column| ==> column[j] == img[x][j]
      {
        var pixel := column[y];
        if pixel != Black && Matches(args, pixel) {
          column := column[y := Red];
        }
        y := y + 1;
      }
      out := out[x := column];
      x := x + 1;
    }
    var expected := Recoloured(args, img);
    assert forall i :: 0 <= i < |img| ==> out[i] == expected[i];
  }

  /**
   * `int_to_signed_short`: `-(v & 0x8000) | (v & 0x7FFF)` on Python's unbounded two's-complement
   * integers. `v & 0x8000` is bit 15 of `v` and `v & 0x7FFF` its low fifteen bits (Euclidean `%`
   * gives the two's-complement low bits of a negative `v` too); the two operands of `|` share no set
   * bit, so the `|` is a sum.
   */
  function IntToSignedShort(v: int): (r: int)
    ensures -32768 <= r < 32768
    ensures (r - v) % 65536 == 0
  {
    ShortParts(v);
    var bit15 := (v % 65536) / 32768 * 32768;
    var low := v % 32768;
    -bit15 + low
  }

  /** `v` split into its multiple of 65536, bit 15 and its low fifteen bits. */
  lemma ShortParts(v: int)
    ensures var m := v % 65536;
      && 0 <= m / 32768 <= 1
      && v % 32768 == m % 32768
      && v == v / 65536 * 65536 + m / 32768 * 32768 + v % 32768
      && (-(m / 32768 * 32768) + v % 32768 - v) % 65536 == 0
  {
    var q, m := v / 65536, v % 65536;
    var h, l := m / 32768, m % 32768;
    assert m == h * 32768 + l;
    assert v == (2 * q + h) * 32768 + l;
    DivModUnique(v, 32768, 2 * q + h, l);
    assert -(h * 32768) + l - v == (-q - h) * 65536;
    DivModUnique(-(h * 32768) + l - v, 65536, -q - h, 0);
  }

  /** Only the low 16 bits matter. */
  lemma SignedShortLow16(v: int)
    ensures IntToSignedShort(v) == IntToSignedShort(v % 65536)
  {
  }

  /** On an unsigned 16-bit value the result is the value read as two's complement. */
  lemma SignedShortOfUnsigned(v: int)
    requires 0 <= v < 65536
    ensures IntToSignedShort(v) == if v < 32768 then v else v - 65536
  {
  }

  /** The result is the one 16-bit signed value congruent to `v` modulo 65536. */
  lemma SignedShortUnique(v: int, r: int)
    requires -32768 <= r < 32768 && (r - v) % 65536 == 0
    ensures r == IntToSignedShort(v)
  {
    var s := IntToSignedShort(v);
    assert (r - s) % 65536 == 0 by { ModDifference(r, s, v); }
  }

  lemma ModDifference(r: int, s: int, v: int)
    requires (r - v) % 65536 == 0 && (s - v) % 65536 == 0
    ensures (r - s) % 65536 == 0
  {
    var a, b := (r - v) / 65536, (s - v) / 65536;
    assert r - s == (a - b) * 65536;
  }
}

=== FILE: crack_passcode_bot.dfy ===
/**
 * The passcode bot of `bots/crack_passcode.py`: argument validation, character-set assembly, brute-force
 * and dictionary candidates, and the attempt loop with its counters, its window of recent codes and its
 * stop predicate. Typing the code, the clipboard, the screen probe and the clock are per-attempt
 * observations supplied by the caller.
 */
module CrackPasscodeBot {
  import opened Wrappers
  import opened Text
  import Enumeration

  const MaxPasscodeLength := 20

  /** How many recently tried codes the bot keeps for its "try the previous attempts" hint. */
  const RecentCodes := 5

  /** The parsed command line, attributes in the order the parser declares them. */
  datatype Args = Args(
    limit: Option<int>, timeout: Option<int>, brute: bool, resumedict: int, min: int, max: int,
    digits: bool, lower: bool, upper: bool, lowercyrillic: bool, uppercyrillic: bool, special: bool,
    allcharacters: bool, delay: int, dict: bool, dictpath: string)

  /** The four `exit()` paths of `init_args`. */
  datatype InitError = MaxTooLong | MinTooShort | TwoMethods | DictionaryMissing

  /**
   * `init_args`: the checks run in source order and the first failing one exits. The method defaults to
   * `dict` only after the dictionary-existence check, so a defaulted `dict` is never checked.
   */
  function InitArgs(args: Args, pathExists: string -> bool): (r: Result<Args, InitError>)
    ensures r == Err(MaxTooLong) <==> args.max > MaxPasscodeLength
    ensures r == Err(MinTooShort) <==> args.max <= MaxPasscodeLength && args.min <= 0
    ensures r == Err(TwoMethods) <==> args.max <= MaxPasscodeLength && args.min > 0 && args.brute && args.dict
    ensures r == Err(DictionaryMissing) <==>
      args.max <= MaxPasscodeLength && args.min > 0 && !args.brute && args.dict && !pathExists(args.dictpath)
    ensures r.Ok? ==> r.value.brute != r.value.dict
    ensures r.Ok? ==> r.value == args.(dict := !args.brute)
  {
    if args.max > MaxPasscodeLength then Err(MaxTooLong)
    else if args.min <= 0 then Err(MinTooShort)
    else if args.brute && args.dict then Err(TwoMethods)
    else if args.dict && !pathExists(args.dictpath) then Err(DictionaryMissing)
    else if !args.brute && !args.dict then Ok(args.(dict := true))
    else Ok(args)
  }

  /** With no method chosen the bot runs the dictionary attack; the default dictionary path is not checked. */
  lemma DefaultMethodIsDict(args: Args, pathExists: string -> bool)
    requires 0 < args.min && args.max <= MaxPasscodeLength && !args.brute && !args.dict
    ensures InitArgs(args, pathExists) == Ok(args.(dict := true))
  {
  }

  /** The two Cyrillic sets exactly as the source spells them: 32 letters each. */
  const LowerCyrillicAsWritten := "абвгдеёжзийклмнопстуфхцчшщъыьэюя"
  const UpperCyrillicAsWritten := "АБВГДЕЁЖЗИЙКЛМНОПСТУФХЦЧШЩЪЫЬЭЮЯ"

  /** The 33-letter Russian alphabets, in alphabetical order (`ё` after `е`), as the sets evidently intend. */
  const LowerCyrillic := CharRange('а', 'е') + "ё" + CharRange('ж', 'я')
  const UpperCyrillic := CharRange('А', 'Е') + "Ё" + CharRange('Ж', 'Я')

  /** The sets as written leave out `р` and `Р`, so no passcode containing them is ever tried. */
  lemma CyrillicAsWrittenMissesEr()
    ensures |LowerCyrillicAsWritten| == 32 && 'р' !in LowerCyrillicAsWritten
    ensures |UpperCyrillicAsWritten| == 32 && 'Р' !in UpperCyrillicAsWritten
  {
    LowerAsWrittenMissesEr();
    UpperAsWrittenMissesEr();
  }

  lemma LowerAsWrittenMissesEr()
    ensures |LowerCyrillicAsWritten| == 32 && 'р' !in LowerCyrillicAsWritten
  {
  }

  lemma UpperAsWrittenMissesEr()
    ensures |UpperCyrillicAsWritten| == 32 && 'Р' !in UpperCyrillicAsWritten
  {
  }

  /** The corrected sets hold the whole alphabet: every letter from а to я plus ё, and nothing else. */
  lemma CyrillicIsWholeAlphabet(c: char)
    ensures |LowerCyrillic| == 33 && |UpperCyrillic| == 33
    ensures c in LowerCyrillic <==> 'а' <= c <= 'я' || c == 'ё'
    ensures c in UpperCyrillic <==> 'А' <= c <= 'Я' || c == 'Ё'
    ensures 'р' in LowerCyrillic && 'Р' in UpperCyrillic
  {
    CharRangeMembers('а', 'е', c);
    CharRangeMembers('ж', 'я', c);
    CharRangeMembers('А', 'Е', c);
    CharRangeMembers('Ж', 'Я', c);
    CharRangeMembers('ж', 'я', 'р');
    CharRangeMembers('Ж', 'Я', 'Р');
  }

  /** The entries of `CHARACTERS_SETS`, with the key each is stored under. */
  datatype CharSet = DigitSet | LowerSet | UpperSet | SpecialSet | LowerCyrillicSet | UpperCyrillicSet {
    function Key(): string {
      match this
      case DigitSet => "digits"
      case LowerSet => "lower"
      case UpperSet => "upper"
      case SpecialSet => "special"
      case LowerCyrillicSet => "lowercyrillic"
      case UpperCyrillicSet => "uppercyrillic"
    }

    /** The command-line flag that asks for this set. */
    function Flag(args: Args): bool {
      match this
      case DigitSet => args.digits
      case LowerSet => args.lower
      case UpperSet => args.upper
      case SpecialSet => args.special
      case LowerCyrillicSet => args.lowercyrillic
      case UpperCyrillicSet => args.uppercyrillic
    }

    /** The characters stored under the key, as the source spells them. */
    function Chars(): string {
      match this
      case DigitSet => Digits
      case LowerSet => AsciiLowercase
      case UpperSet => AsciiUppercase
      case SpecialSet => Punctuation
      case LowerCyrillicSet => LowerCyrillicAsWritten
      case UpperCyrillicSet => UpperCyrillicAsWritten
    }

    /** The characters the entry evidently intends: the Cyrillic sets with their missing letter restored. */
    function IntendedChars(): string {
      match this
      case LowerCyrillicSet => LowerCyrillic
      case UpperCyrillicSet => UpperCyrillic
      case _ => Chars()
    }
  }

  /** The intended sets differ from the written ones only by `р`/`Р`, restored at its alphabetical place after `п`/`П`. */
  lemma IntendedRestoresEr(c: CharSet)
    ensures c == LowerCyrillicSet ==>
      c.IntendedChars() == c.Chars()[..17] + "р" + c.Chars()[17..] && c.Chars()[16] == 'п'
    ensures c == UpperCyrillicSet ==>
      c.IntendedChars() == c.Chars()[..17] + "Р" + c.Chars()[17..] && c.Chars()[16] == 'П'
    ensures !c.LowerCyrillicSet? && !c.UpperCyrillicSet? ==> c.IntendedChars() == c.Chars()
  {
    if c == LowerCyrillicSet {
      LowerIntended();
    } else if c == UpperCyrillicSet {
      UpperIntended();
    }
  }

  lemma LowerIntended()
    ensures LowerCyrillic == LowerCyrillicAsWritten[..17] + "р" + LowerCyrillicAsWritten[17..]
    ensures LowerCyrillicAsWritten[16] == 'п'
  {
    LowerCyrillicSpelled();
  }

  /** The intended lower-case alphabet spelled out. */
  lemma LowerCyrillicSpelled()
    ensures LowerCyrillic == "абвгдеёжзийклмнопрстуфхцчшщъыьэюя"
  {
  }

  lemma UpperIntended()
    ensures UpperCyrillic == UpperCyrillicAsWritten[..17] + "Р" + UpperCyrillicAsWritten[17..]
    ensures UpperCyrillicAsWritten[16] == 'П'
  {
    UpperCyrillicSpelled();
  }

  /** The intended upper-case alphabet spelled out. */
  lemma UpperCyrillicSpelled()
    ensures UpperCyrillic == "АБВГДЕЁЖЗИЙКЛМНОПРСТУФХЦЧШЩЪЫЬЭЮЯ"
  {
  }

  /** No set as written holds `р` or `Р`. */
  lemma NoSetHoldsEr(c: CharSet)
    ensures 'р' !in c.Chars() && 'Р' !in c.Chars()
  {
    match c
    case DigitSet => DigitsLackEr();
    case LowerSet => LowerLacksEr();
    case UpperSet => UpperLacksEr();
    case SpecialSet => PunctuationLacksEr();
    case LowerCyrillicSet => LowerAsWrittenMissesEr(); LowerAsWrittenHasNoCapitalEr();
    case UpperCyrillicSet => UpperAsWrittenMissesEr(); UpperAsWrittenHasNoSmallEr();
  }

  lemma DigitsLackEr() ensures 'р' !in Digits && 'Р' !in Digits {}
  lemma LowerLacksEr() ensures 'р' !in AsciiLowercase && 'Р' !in AsciiLowercase {}
  lemma UpperLacksEr() ensures 'р' !in AsciiUppercase && 'Р' !in AsciiUppercase {}
  lemma PunctuationLacksEr() ensures 'р' !in Punctuation && 'Р' !in Punctuation {}
  lemma LowerAsWrittenHasNoCapitalEr() ensures 'Р' !in LowerCyrillicAsWritten {}
  lemma UpperAsWrittenHasNoSmallEr() ensures 'р' !in UpperCyrillicAsWritten {}

  /** `name in CHARACTERS_SETS`, answering which entry the key names. */
  function SetNamed(name: string): (r: Option<CharSet>)
    ensures r.Some? ==> r.value.Key() == name
  {
    if name == "digits" then Some(DigitSet)
    else if name == "lower" then Some(LowerSet)
    else if name == "upper" then Some(UpperSet)
    else if name == "special" then Some(SpecialSet)
    else if name == "lowercyrillic" then Some(LowerCyrillicSet)
    else if name == "uppercyrillic" then Some(UpperCyrillicSet)
    else None
  }

  /** The lookup finds every entry under its own key. */
  lemma SetNamedFindsEveryKey(c: CharSet)
    ensures SetNamed(c.Key()) == Some(c)
  {
  }

  /** The order the dictionary literal declares its entries in. */
  const SetOrder: seq<CharSet> := [DigitSet, LowerSet, UpperSet, SpecialSet, LowerCyrillicSet, UpperCyrillicSet]

  /** The attributes of the parsed namespace, in the order the parser declares them. */
  datatype Attr = Limit | Timeout | Brute | ResumeDict | Min | Max | DigitsFlag | Lower | Upper
    | LowerCyrillicFlag | UpperCyrillicFlag | Special | AllCharacters | Delay | Dict | DictPath
  {
    function Name(): string {
      match this
      case Limit => "limit"
      case Timeout => "timeout"
      case Brute => "brute"
      case ResumeDict => "resumedict"
      case Min => "min"
      case Max => "max"
      case DigitsFlag => "digits"
      case Lower => "lower"
      case Upper => "upper"
      case LowerCyrillicFlag => "lowercyrillic"
      case UpperCyrillicFlag => "uppercyrillic"
      case Special => "special"
      case AllCharacters => "allcharacters"
      case Delay => "delay"
      case Dict => "dict"
      case DictPath => "dictpath"
    }

    /** Python truthiness of the attribute's value: `None`, `0`, `False` and `""` are false. */
    function Value(args: Args): bool {
      match this
      case Limit => Truthy(args.limit)
      case Timeout => Truthy(args.timeout)
      case Brute => args.brute
      case ResumeDict => args.resumedict != 0
      case Min => args.min != 0
      case Max => args.max != 0
      case DigitsFlag => args.digits
      case Lower => args.lower
      case Upper => args.upper
      case LowerCyrillicFlag => args.lowercyrillic
      case UpperCyrillicFlag => args.uppercyrillic
      case Special => args.special
      case AllCharacters => args.allcharacters
      case Delay => args.delay != 0
      case Dict => args.dict
      case DictPath => args.dictpath != ""
    }

    /** The entry of `CHARACTERS_SETS` stored under this attribute's name, if any. */
    function NamedSet(): Option<CharSet> {
      match this
      case DigitsFlag => Some(DigitSet)
      case Lower => Some(LowerSet)
      case Upper => Some(UpperSet)
      case LowerCyrillicFlag => Some(LowerCyrillicSet)
      case UpperCyrillicFlag => Some(UpperCyrillicSet)
      case Special => Some(SpecialSet)
      case _ => None
    }
  }

  /** Looking the attribute's name up in `CHARACTERS_SETS` finds exactly `NamedSet()`. */
  lemma NamedSetIsTheLookup(a: Attr)
    ensures SetNamed(a.Name()) == a.NamedSet()
  {
  }

  /**
   * `vars(self.args).items()`: every attribute with its Python truthiness, in declaration order — the
   * six before the set flags, the six set flags, and the four after them.
   */
  function Namespace(args: Args): (r: seq<(Attr, bool)>)
    ensures |r| == |AttrOrder|
    ensures forall k :: 0 <= k < |r| ==> r[k] == (AttrOrder[k], AttrOrder[k].Value(args))
  {
    LeadingAttributes(args) + SetFlags(args) + TrailingAttributes(args)
  }

  /** Every attribute of the namespace, in declaration order. */
  const AttrOrder: seq<Attr> := LeadingOrder + SetFlagOrder + TrailingOrder
  const LeadingOrder: seq<Attr> := [Limit, Timeout, Brute, ResumeDict, Min, Max]
  const SetFlagOrder: seq<Attr> := [DigitsFlag, Lower, Upper, LowerCyrillicFlag, UpperCyrillicFlag, Special]
  const TrailingOrder: seq<Attr> := [AllCharacters, Delay, Dict, DictPath]

  /** Each attribute paired with its truthiness, in the given order. */
  function Pairs(attrs: seq<Attr>, args: Args): (r: seq<(Attr, bool)>)
    ensures |r| == |attrs|
    ensures forall k :: 0 <= k < |r| ==> r[k] == (attrs[k], attrs[k].Value(args))
  {
    if |attrs| == 0 then [] else [(attrs[0], attrs[0].Value(args))] + Pairs(attrs[1..], args)
  }

  function LeadingAttributes(args: Args): seq<(Attr, bool)> {
    Pairs(LeadingOrder, args)
  }

  function SetFlags(args: Args): seq<(Attr, bool)> {
    Pairs(SetFlagOrder, args)
  }

  function TrailingAttributes(args: Args): seq<(Attr, bool)> {
    Pairs(TrailingOrder, args)
  }

  /** `allowed_chars`: the sets' characters, concatenated in the order the sets were selected. */
  function AllSets(sets: seq<CharSet>): string {
    if |sets| == 0 then "" else sets[0].Chars() + AllSets(sets[1..])
  }

  /**
   * `selected_sets` of the attribute scan: the entry of every truthy attribute whose name is a key of
   * `CHARACTERS_SETS` (`NamedSetIsTheLookup`), in attribute order.
   */
  function Selected(items: seq<(Attr, bool)>): (r: seq<CharSet>)
    ensures |r| <= |items|
    ensures forall c :: c in r <==> exists k :: 0 <= k < |items| && items[k].1 && items[k].0.NamedSet() == Some(c)
  {
    if |items| == 0 then []
    else
      var rest := Selected(items[1..]);
      assert forall c :: c in rest <==>
        exists k :: 1 <= k < |items| && items[k].1 && items[k].0.NamedSet() == Some(c) by {
        forall c | c in rest ensures exists k :: 1 <= k < |items| && items[k].1 && items[k].0.NamedSet() == Some(c) {
          var k :| 0 <= k < |items[1..]| && items[1..][k].1 && items[1..][k].0.NamedSet() == Some(c);
          assert items[k + 1] == items[1..][k];
        }
        forall c, k | 1 <= k < |items| && items[k].1 && items[k].0.NamedSet() == Some(c) ensures c in rest {
          assert items[1..][k - 1] == items[k];
        }
      }
      Picked(items[0]) + rest
  }

  /** The set one `(name, value)` item of the scan adds, if any. */
  function Picked(item: (Attr, bool)): seq<CharSet> {
    if item.1 && item.0.NamedSet().Some? then [item.0.NamedSet().value] else []
  }

  /** `selected_sets` of `crack_brute`: all six in declaration order, or the scan's choice. */
  function SelectedSets(args: Args): (r: seq<CharSet>)
    ensures args.allcharacters ==> r == SetOrder
    ensures !args.allcharacters ==> r == Chosen(FlagOrder, args)
  {
    SelectedInAttributeOrder(args);
    if args.allcharacters then SetOrder else Selected(Namespace(args))
  }

  /**
   * `allowed_chars` of `crack_brute`, with its fallback for an empty selection. Built from the sets as
   * written, it never holds `р` or `Р` (`NoSetHoldsEr`).
   */
  function AllowedChars(args: Args): (r: string)
    ensures |r| > 0
    ensures 'р' !in r && 'Р' !in r
  {
    var chars := AllSets(SelectedSets(args));
    AllSetsLackEr(SelectedSets(args));
    AllSetsEmptyIff(SelectedSets(args));
    DigitsLackEr();
    LowerLacksEr();
    if |chars| == 0 then Digits + AsciiLowercase else chars
  }

  lemma {:induction false} AllSetsLackEr(sets: seq<CharSet>)
    ensures 'р' !in AllSets(sets) && 'Р' !in AllSets(sets)
  {
    if |sets| > 0 {
      NoSetHoldsEr(sets[0]);
      AllSetsLackEr(sets[1..]);
    }
  }

  lemma {:induction false} SelectedAppend(a: seq<(Attr, bool)>, b: seq<(Attr, bool)>)
    ensures Selected(a + b) == Selected(a) + Selected(b)
  {
    if |a| == 0 {
      assert a + b == b;
    } else {
      assert (a + b)[0] == a[0] && (a + b)[1..] == a[1..] + b;
      SelectedAppend(a[1..], b);
    }
  }

  lemma {:induction false} NothingSelected(items: seq<(Attr, bool)>)
    requires forall k :: 0 <= k < |items| ==> items[k].0.NamedSet().None?
    ensures Selected(items) == []
  {
    if |items| > 0 {
      NothingSelected(items[1..]);
    }
  }

  /** The order the parser declares the six set flags in. */
  const FlagOrder: seq<CharSet> := [DigitSet, LowerSet, UpperSet, LowerCyrillicSet, UpperCyrillicSet, SpecialSet]

  /** Reference selection: the sets of `sets` whose flag is on, in the order of `sets`. */
  function Chosen(sets: seq<CharSet>, args: Args): (r: seq<CharSet>)
    ensures forall c :: c in r ==> c in sets && c.Flag(args)
  {
    if |sets| == 0 then []
    else (if sets[0].Flag(args) then [sets[0]] else []) + Chosen(sets[1..], args)
  }

  /** A scan over items that name `sets`, one for one with their flags, selects exactly the chosen sets. */
  lemma {:induction false} ScanIsChoice(items: seq<(Attr, bool)>, sets: seq<CharSet>, args: Args)
    requires |items| == |sets|
    requires forall k :: 0 <= k < |items| ==> items[k].0.NamedSet() == Some(sets[k]) && items[k].1 == sets[k].Flag(args)
    ensures Selected(items) == Chosen(sets, args)
  {
    if |items| > 0 {
      ScanIsChoice(items[1..], sets[1..], args);
    }
  }

  /** Only the set flags contribute to the scan. */
  lemma OnlySetFlagsSelect(args: Args)
    ensures Selected(Namespace(args)) == Selected(SetFlags(args))
  {
    var pre, mid, post := LeadingAttributes(args), SetFlags(args), TrailingAttributes(args);
    var chosen := Selected(mid);
    assert Selected(pre + mid) == chosen by {
      NothingSelected(pre);
      SelectedAppend(pre, mid);
      assert [] + chosen == chosen;
    }
    NothingSelected(post);
    SelectedAppend(pre + mid, post);
    assert chosen + [] == chosen;
  }

  lemma SetFlagsAreTheChoice(args: Args)
    ensures Selected(SetFlags(args)) == Chosen(FlagOrder, args)
  {
    ScanIsChoice(SetFlags(args), FlagOrder, args);
  }

  /**
   * The attribute scan selects the sets whose flag is on, in the order the parser declares the flags,
   * which puts `special` after the two Cyrillic sets.
   */
  lemma SelectedInAttributeOrder(args: Args)
    ensures Selected(Namespace(args)) == Chosen(FlagOrder, args)
  {
    OnlySetFlagsSelect(args);
    SetFlagsAreTheChoice(args);
  }

  /** A set is selected iff its flag is on; none is selected twice. */
  lemma {:induction false} ChosenMembers(sets: seq<CharSet>, args: Args, c: CharSet)
    ensures c in Chosen(sets, args) <==> c in sets && c.Flag(args)
  {
    if |sets| > 0 {
      ChosenMembers(sets[1..], args, c);
      assert sets == [sets[0]] + sets[1..];
    }
  }

  /** With only the flag of `sets[j]` on, that set alone is chosen. */
  lemma {:induction false} ChosenSingle(sets: seq<CharSet>, args: Args, j: nat)
    requires j < |sets|
    requires forall k :: 0 <= k < |sets| ==> (sets[k].Flag(args) <==> k == j)
    ensures Chosen(sets, args) == [sets[j]]
    decreases |sets|
  {
    if j == 0 {
      NoneChosen(sets[1..], args);
      assert [sets[0]] + [] == [sets[0]];
    } else {
      ChosenSingle(sets[1..], args, j - 1);
      assert [] + [sets[j]] == [sets[j]];
    }
  }

  /** With every flag of `sets` off, nothing is chosen. */
  lemma {:induction false} NoneChosen(sets: seq<CharSet>, args: Args)
    requires forall k :: 0 <= k < |sets| ==> !sets[k].Flag(args)
    ensures Chosen(sets, args) == []
    decreases |sets|
  {
    if |sets| > 0 {
      NoneChosen(sets[1..], args);
    }
  }

  /** With every flag of `sets` on, all of `sets` is chosen, in order. */
  lemma {:induction false} ChosenAll(sets: seq<CharSet>, args: Args)
    requires forall k :: 0 <= k < |sets| ==> sets[k].Flag(args)
    ensures Chosen(sets, args) == sets
  {
    if |sets| > 0 {
      ChosenAll(sets[1..], args);
      assert sets == [sets[0]] + sets[1..];
    }
  }

  /** The `allcharacters` loop visits all six sets in declaration order. */
  lemma AllCharactersInDeclarationOrder(args: Args)
    requires args.allcharacters
    ensures SelectedSets(args) == [DigitSet, LowerSet, UpperSet, SpecialSet, LowerCyrillicSet, UpperCyrillicSet]
  {
  }

  lemma {:induction false} AllSetsAppend(a: seq<CharSet>, b: seq<CharSet>)
    ensures AllSets(a + b) == AllSets(a) + AllSets(b)
  {
    if |a| == 0 {
      assert a + b == b;
    } else {
      assert AllSets(a + b) == a[0].Chars() + AllSets(a[1..] + b) by {
        assert (a + b)[0] == a[0];
        assert (a + b)[1..] == a[1..] + b;
      }
      AllSetsAppend(a[1..], b);
      ConcatAssoc(a[0].Chars(), AllSets(a[1..]), AllSets(b));
    }
  }

  lemma ConcatAssoc(x: string, y: string, z: string)
    ensures x + (y + z) == (x + y) + z
  {
  }

  lemma AllSetsCons(c: CharSet, rest: seq<CharSet>)
    ensures AllSets([c] + rest) == c.Chars() + AllSets(rest)
  {
    assert ([c] + rest)[1..] == rest;
  }

  lemma FirstChars()
    ensures |LowerCyrillicAsWritten| > 0 && LowerCyrillicAsWritten[0] == 'а'
    ensures |Punctuation| > 0 && Punctuation[0] == '!'
  {
  }

  /** Every set is non-empty. */
  lemma CharsNonEmpty(c: CharSet)
    ensures |c.Chars()| > 0
  {
  }

  lemma {:induction false} AllSetsEmptyIff(sets: seq<CharSet>)
    ensures |AllSets(sets)| == 0 <==> |sets| == 0
  {
    if |sets| > 0 {
      CharsNonEmpty(sets[0]);
    }
  }

  /**
   * The character set is never empty, and it falls back to digits and lower-case letters exactly when
   * no set was selected.
   */
  lemma AllowedCharsFallback(args: Args)
    ensures |AllowedChars(args)| > 0
    ensures |SelectedSets(args)| == 0 ==> AllowedChars(args) == Digits + AsciiLowercase
    ensures |SelectedSets(args)| > 0 ==> AllowedChars(args) == AllSets(SelectedSets(args))
  {
    AllSetsEmptyIff(SelectedSets(args));
    CharsNonEmpty(DigitSet);
  }

  lemma DifferAfterCommonPrefix(p: string, x: string, y: string)
    requires |x| > 0 && |y| > 0 && x[0] != y[0]
    ensures p + x != p + y
  {
    assert (p + x)[|p|] == x[0];
    assert (p + y)[|p|] == y[0];
  }

  /** Two set lists that agree up to a point and then start with sets of different first characters give different strings. */
  lemma {:induction false} DivergingSets(head: seq<CharSet>, x: CharSet, xs: seq<CharSet>, y: CharSet, ys: seq<CharSet>)
    requires |x.Chars()| > 0 && |y.Chars()| > 0 && x.Chars()[0] != y.Chars()[0]
    ensures AllSets(head + ([x] + xs)) != AllSets(head + ([y] + ys))
  {
    AllSetsAppend(head, [x] + xs);
    AllSetsAppend(head, [y] + ys);
    AllSetsCons(x, xs);
    AllSetsCons(y, ys);
    DifferAfterCommonPrefix(AllSets(head), AllSets([x] + xs), AllSets([y] + ys));
  }

  /** The two orders give different character strings: `а` and `!` meet at the same position. */
  lemma OrdersGiveDifferentChars()
    ensures AllSets(FlagOrder) != AllSets(SetOrder)
  {
    var head := [DigitSet, LowerSet, UpperSet];
    assert FlagOrder == head + ([LowerCyrillicSet] + [UpperCyrillicSet, SpecialSet]);
    assert SetOrder == head + ([SpecialSet] + [LowerCyrillicSet, UpperCyrillicSet]);
    FirstChars();
    DivergingSets(head, LowerCyrillicSet, [UpperCyrillicSet, SpecialSet], SpecialSet, [LowerCyrillicSet, UpperCyrillicSet]);
  }

  /**
   * With every set flag on but `allcharacters` off, the sets come in a different order from the
   * `allcharacters` one — `special` after the Cyrillic sets rather than before — and so do the characters.
   */
  lemma FlagOrderDiffersFromDeclarationOrder(args: Args)
    requires !args.allcharacters && args.digits && args.lower && args.upper && args.special
    requires args.lowercyrillic && args.uppercyrillic
    ensures SelectedSets(args) == FlagOrder && SelectedSets(args.(allcharacters := true)) == SetOrder
    ensures AllowedChars(args) != AllowedChars(args.(allcharacters := true))
  {
    var all := args.(allcharacters := true);
    SelectedInAttributeOrder(args);
    ChosenAll(FlagOrder, args);
    AllowedCharsFallback(args);
    AllowedCharsFallback(all);
    OrdersGiveDifferentChars();
  }

  /**
   * The codes `crack_brute` tries: lengths `min..max`, each in `product` order over the allowed characters.
   * None of them contains `р` or `Р`, whatever sets are selected.
   */
  function BruteCodes(args: Args): (r: seq<string>)
    requires args.min >= 0
    ensures forall i :: 0 <= i < |r| ==> args.min <= |r[i]| <= args.max
    ensures forall i, k :: 0 <= i < |r| && 0 <= k < |r[i]| ==> r[i][k] in AllowedChars(args)
    ensures forall i :: 0 <= i < |r| ==> 'р' !in r[i] && 'Р' !in r[i]
  {
    var cs := AllowedChars(args);
    var r := Enumeration.Candidates(cs, args.min, args.max);
    assert forall i :: 0 <= i < |r| ==> 'р' !in r[i] && 'Р' !in r[i] by {
      forall i | 0 <= i < |r| ensures 'р' !in r[i] && 'Р' !in r[i] {
        assert forall k :: 0 <= k < |r[i]| ==> r[i][k] in cs;
      }
    }
    r
  }

  /**
   * `--brute --lowercyrillic --min 1 --max 1` tries the 32 written letters one by one and never `р`,
   * although the intended set (`CyrillicIsWholeAlphabet`) has 33 letters and contains it.
   */
  lemma LowerCyrillicBruteMissesEr(args: Args)
    requires args.min == 1 && args.max == 1 && !args.allcharacters && args.lowercyrillic
    requires !args.digits && !args.lower && !args.upper && !args.uppercyrillic && !args.special
    ensures BruteCodes(args) == Enumeration.Product(LowerCyrillicAsWritten, 1)
    ensures |BruteCodes(args)| == 32 && "р" !in BruteCodes(args)
  {
    OnlyLowerCyrillic(args);
    LowerAsWrittenMissesEr();
    SingleLengthBrute(args, LowerCyrillicAsWritten, 1, 'р');
    assert Enumeration.Power(32, 1) == 32;
  }

  /** With `--min n --max n` the codes are the words of length n over the allowed characters. */
  lemma SingleLengthBrute(args: Args, cs: string, n: nat, c: char)
    requires args.min == n && args.max == n && AllowedChars(args) == cs && c !in cs
    ensures BruteCodes(args) == Enumeration.Product(cs, n)
    ensures |BruteCodes(args)| == Enumeration.Power(|cs|, n) && [c] !in BruteCodes(args)
  {
    var r := BruteCodes(args);
    assert Enumeration.Candidates(cs, n, n) == Enumeration.Product(cs, n) + Enumeration.Candidates(cs, n + 1, n);
    assert Enumeration.Candidates(cs, n + 1, n) == [];
    assert r == Enumeration.Product(cs, n);
    forall i | 0 <= i < |r| ensures r[i] != [c] {
      if n == 1 {
        assert r[i][0] in cs;
      }
    }
  }

  /** Only `--lowercyrillic` selected: the allowed characters are that set as written. */
  lemma OnlyLowerCyrillic(args: Args)
    requires !args.allcharacters && args.lowercyrillic
    requires !args.digits && !args.lower && !args.upper && !args.uppercyrillic && !args.special
    ensures AllowedChars(args) == LowerCyrillicAsWritten
  {
    assert SelectedSets(args) == [LowerCyrillicSet] by {
      SelectedInAttributeOrder(args);
      ChosenSingle(FlagOrder, args, 3);
    }
    AllSetsCons(LowerCyrillicSet, []);
    assert [LowerCyrillicSet] + [] == [LowerCyrillicSet];
    LowerAsWrittenMissesEr();
  }

  /**
   * The lines `crack_dict` does not skip: lines are numbered from 1 and, with a non-zero `resumedict`,
   * those numbered below it are passed over. `lineNo` is the number of `lines[0]`.
   */
  function KeptLines(lines: seq<string>, resumedict: int, lineNo: int): (r: seq<string>)
    ensures |r| <= |lines| && r == lines[|lines| - |r|..]
    ensures resumedict == 0 || lineNo >= resumedict ==> r == lines
    decreases |lines|
  {
    if |lines| == 0 then []
    else
      var here := if resumedict != 0 && lineNo < resumedict then [] else [lines[0]];
      var rest := KeptLines(lines[1..], resumedict, lineNo + 1);
      assert here == [lines[0]] ==> here + rest == lines;
      here + rest
  }

  /** Number of leading lines a resume point skips. */
  function Skipped(count: nat, resumedict: int): (k: nat)
    ensures k <= count
  {
    if resumedict > 1 then (if resumedict - 1 < count then resumedict - 1 else count) else 0
  }

  /** A resume at line `r` keeps exactly the lines from line `r` on (all of them when `r` <= 1). */
  lemma {:induction false} DictResume(lines: seq<string>, resumedict: int, lineNo: nat)
    requires lineNo >= 1
    ensures KeptLines(lines, resumedict, lineNo) == lines[Skipped(|lines|, resumedict - lineNo + 1)..]
    decreases |lines|
  {
    if |lines| > 0 {
      if resumedict != 0 && lineNo < resumedict {
        DictResume(lines[1..], resumedict, lineNo + 1);
        ResumeSkipsFirst(lines, resumedict, lineNo);
      } else {
        ResumeKeepsAll(lines, resumedict, lineNo);
      }
    }
  }

  /** A line before the resume point is dropped, and the rest of the file is one skip shorter. */
  lemma ResumeSkipsFirst(lines: seq<string>, resumedict: int, lineNo: nat)
    requires |lines| > 0 && resumedict != 0 && lineNo < resumedict
    requires KeptLines(lines[1..], resumedict, lineNo + 1) == lines[1..][Skipped(|lines| - 1, resumedict - lineNo)..]
    ensures KeptLines(lines, resumedict, lineNo) == lines[Skipped(|lines|, resumedict - lineNo + 1)..]
  {
    var skip' := Skipped(|lines| - 1, resumedict - lineNo);
    assert Skipped(|lines|, resumedict - lineNo + 1) == skip' + 1;
    assert lines[1..][skip'..] == lines[skip' + 1..];
    assert KeptLines(lines, resumedict, lineNo) == KeptLines(lines[1..], resumedict, lineNo + 1);
  }

  /** From the resume point on, every line is kept. */
  lemma ResumeKeepsAll(lines: seq<string>, resumedict: int, lineNo: nat)
    requires lineNo >= 1 && (resumedict == 0 || lineNo >= resumedict)
    ensures KeptLines(lines, resumedict, lineNo) == lines[Skipped(|lines|, resumedict - lineNo + 1)..]
  {
    assert KeptLines(lines, resumedict, lineNo) == lines;
    assert Skipped(|lines|, resumedict - lineNo + 1) == 0;
  }

  /** The passcodes `crack_dict` tries: the kept lines, each stripped, in file order. */
  function DictCodes(lines: seq<string>, resumedict: int): (r: seq<string>)
    ensures var skip := Skipped(|lines|, resumedict);
      |r| == |lines| - skip && forall i :: 0 <= i < |r| ==> r[i] == Strip(lines[i + skip])
  {
    var kept := KeptLines(lines, resumedict, 1);
    var skip := Skipped(|lines|, resumedict);
    assert kept == lines[skip..] by { DictResume(lines, resumedict, 1); }
    assert forall i :: 0 <= i < |kept| ==> kept[i] == lines[i + skip];
    StrippedLines(kept)
  }

  /** The counters and flags `try_passcode` and the loops maintain. */
  datatype Bot = Bot(lastCodes: seq<string>, attempts: nat, tries: nat, stopped: bool)

  /** State after `init_args` and the counter reset in `start`. */
  const Fresh := Bot([], 0, 0, false)

  /** What the outside world contributes to attempt number `n`: the pixel probe, an ESC, the clock. */
  datatype Observation = Observation(correct: bool, escPressed: bool, elapsed: int)

  /** Append a code and drop the oldest once more than five are held. */
  function Remember(recent: seq<string>, code: string): seq<string> {
    var l := recent + [code];
    if |l| > RecentCodes then l[1..] else l
  }

  /** The last `min(5, |h|)` entries of `h`. */
  function Recent(h: seq<string>): (r: seq<string>)
    ensures |r| <= RecentCodes && |r| <= |h| && r == h[|h| - |r|..]
    ensures |r| == RecentCodes || r == h
  {
    if |h| <= RecentCodes then h else h[|h| - RecentCodes..]
  }

  /** The window invariant: remembering a code keeps exactly the five most recent. */
  lemma RememberKeepsRecent(h: seq<string>, code: string)
    ensures Remember(Recent(h), code) == Recent(h + [code])
  {
    var r := Recent(h);
    if |h| > RecentCodes {
      assert (r + [code])[1..] == (h + [code])[|h + [code]| - RecentCodes..];
    }
  }

  /** One pass of the loop body up to the stop check: remember, try, count. */
  function Attempt(bot: Bot, code: string, obs: Observation): (b: Bot)
    ensures b.attempts == bot.attempts + 1
    ensures b.tries == if obs.correct then bot.tries else bot.tries + 1
    ensures b.stopped <==> bot.stopped || obs.correct || obs.escPressed
    ensures b.lastCodes == Remember(bot.lastCodes, code)
  {
    var recent := Remember(bot.lastCodes, code);
    var tried := if obs.correct then bot.(stopped := true) else bot.(tries := bot.tries + 1);
    tried.(lastCodes := recent, attempts := bot.attempts + 1, stopped := tried.stopped || obs.escPressed)
  }

  /** The answer of `check_stopped`; a limit or a timeout also shuts the key watcher down. */
  datatype StopCheck = Continue | LimitReached | TimedOut | Halted {
    predicate ShutsDownWatcher() { LimitReached? || TimedOut? }
  }

  function CheckStopped(args: Args, bot: Bot, elapsed: int): (c: StopCheck)
    ensures c != Continue <==>
      || (Truthy(args.limit) && bot.tries >= args.limit.value)
      || (Truthy(args.timeout) && elapsed >= args.timeout.value)
      || bot.stopped
    ensures c.ShutsDownWatcher() <==>
      || (Truthy(args.limit) && bot.tries >= args.limit.value)
      || (Truthy(args.timeout) && elapsed >= args.timeout.value)
    ensures c == Halted ==> bot.stopped
  {
    if Truthy(args.limit) && bot.tries >= args.limit.value then LimitReached
    else if Truthy(args.timeout) && elapsed >= args.timeout.value then TimedOut
    else if bot.stopped then Halted
    else Continue
  }

  /**
   * Where an attack stopped. `sleepFailed` records the `ValueError` that `time.sleep` raises on a negative
   * delay: the first code has been remembered but nothing was typed or counted, and `start` ends there.
   */
  datatype AttackResult = AttackResult(bot: Bot, tried: seq<string>, check: StopCheck, sleepFailed: bool)

  /** Number of incorrect answers among attempts `from .. from + n - 1`. */
  function Misses(world: nat -> Observation, from: nat, n: nat): nat
    decreases n
  {
    if n == 0 then 0 else (if world(from).correct then 0 else 1) + Misses(world, from + 1, n - 1)
  }

  /**
   * The attempt loop shared by `crack_brute` and `crack_dict`: for each code, attempt it, then return as
   * soon as `check_stopped` answers true. Attempt number `n` sees `world(n)`. The delay is the same for every
   * attempt, so a negative one fails the very first sleep.
   */
  function Attack(args: Args, bot: Bot, codes: seq<string>, world: nat -> Observation): (r: AttackResult)
    ensures r.tried <= codes
    ensures r.bot.attempts == bot.attempts + |r.tried|
    ensures r.bot.tries == bot.tries + Misses(world, bot.attempts, |r.tried|)
    ensures r.sleepFailed <==> args.delay < 0 && |codes| > 0
    ensures r.sleepFailed ==> r.tried == [] && r.check == Continue
    ensures |r.tried| < |codes| && !r.sleepFailed ==> r.check != Continue && |r.tried| > 0
    ensures r.check != Continue ==> |r.tried| > 0
    ensures |r.tried| > 0 ==> r.check == CheckStopped(args, r.bot, world(bot.attempts + |r.tried| - 1).elapsed)
    ensures |r.tried| == 0 && !r.sleepFailed ==> r.bot == bot
    ensures |bot.lastCodes| <= RecentCodes ==>
      r.bot.lastCodes == Recent(bot.lastCodes + if r.sleepFailed then [codes[0]] else r.tried)
    decreases |codes|
  {
    if |codes| == 0 then
      assert bot.lastCodes + [] == bot.lastCodes;
      AttackResult(bot, [], Continue, false)
    else if args.delay < 0 then
      RememberKeepsRecent(bot.lastCodes, codes[0]);
      AttackResult(bot.(lastCodes := Remember(bot.lastCodes, codes[0])), [], Continue, true)
    else
      var obs := world(bot.attempts);
      var next := Attempt(bot, codes[0], obs);
      var check := CheckStopped(args, next, obs.elapsed);
      if check != Continue then
        AttackFirst(bot, codes, world);
        AttackResult(next, [codes[0]], check, false)
      else
        var rest := Attack(args, next, codes[1..], world);
        AttackCons(bot, codes, world, rest);
        AttackResult(rest.bot, [codes[0]] + rest.tried, rest.check, false)
  }

  /** The first attempt alone: its code is a prefix of the codes, counted and remembered. */
  lemma AttackFirst(bot: Bot, codes: seq<string>, world: nat -> Observation)
    requires |codes| > 0
    ensures var next := Attempt(bot, codes[0], world(bot.attempts));
      && [codes[0]] <= codes
      && next.attempts == bot.attempts + 1
      && next.tries == bot.tries + Misses(world, bot.attempts, 1)
      && (|bot.lastCodes| <= RecentCodes ==> next.lastCodes == Recent(bot.lastCodes + [codes[0]]))
  {
    RememberKeepsRecent(bot.lastCodes, codes[0]);
  }

  /** The first attempt followed by the rest of the run: the run's counters and memory add up. */
  lemma AttackCons(bot: Bot, codes: seq<string>, world: nat -> Observation, rest: AttackResult)
    requires |codes| > 0
    requires var next := Attempt(bot, codes[0], world(bot.attempts));
      && rest.tried <= codes[1..]
      && rest.bot.attempts == next.attempts + |rest.tried|
      && rest.bot.tries == next.tries + Misses(world, next.attempts, |rest.tried|)
      && (|next.lastCodes| <= RecentCodes ==> rest.bot.lastCodes == Recent(next.lastCodes + rest.tried))
    ensures var tried := [codes[0]] + rest.tried;
      && tried <= codes
      && rest.bot.attempts == bot.attempts + |tried|
      && rest.bot.tries == bot.tries + Misses(world, bot.attempts, |tried|)
      && (|bot.lastCodes| <= RecentCodes ==> rest.bot.lastCodes == Recent(bot.lastCodes + tried))
  {
    ConsPrefix(codes, rest.tried);
    if |bot.lastCodes| <= RecentCodes {
      AttackFirst(bot, codes, world);
      MemoryCons(bot.lastCodes, codes[0], rest.tried);
    }
  }

  lemma ConsPrefix(codes: seq<string>, t: seq<string>)
    requires |codes| > 0 && t <= codes[1..]
    ensures [codes[0]] + t <= codes
  {
    var tried := [codes[0]] + t;
    assert forall i :: 0 < i < |tried| ==> tried[i] == t[i - 1] == codes[1..][i - 1];
  }

  /** Remembering one code and then a run of codes is remembering the whole run. */
  lemma MemoryCons(h: seq<string>, code: string, t: seq<string>)
    ensures Recent(Recent(h + [code]) + t) == Recent(h + ([code] + t))
  {
    assert h + [code] + t == h + ([code] + t);
    RecentOfRecent(h + [code], t);
  }

  lemma RecentOfRecent(h: seq<string>, t: seq<string>)
    ensures Recent(Recent(h) + t) == Recent(h + t)
  {
    var b := h + t;
    if |h| > RecentCodes {
      var d := |h| - RecentCodes;
      var a := Recent(h) + t;
      assert a == b[d..] by {
        assert Recent(h) == h[d..];
        assert b[d..] == h[d..] + t;
      }
      assert |a| >= RecentCodes && |b| >= RecentCodes;
      assert a[|a| - RecentCodes..] == b[|b| - RecentCodes..];
    }
  }

  /**
   * Once `check_stopped` answers true nothing more is tried: every proper prefix of the tried codes was
   * itself a run, and the check after its last attempt (attempt number `bot.attempts + k - 1`) answered false.
   */
  lemma NoAttemptAfterStop(args: Args, bot: Bot, codes: seq<string>, world: nat -> Observation, k: nat)
    requires k < |Attack(args, bot, codes, world).tried|
    ensures Attack(args, bot, codes[..k], world).tried == codes[..k]
    ensures Attack(args, bot, codes[..k], world).check == Continue
    ensures 0 < k ==>
      CheckStopped(args, Attack(args, bot, codes[..k], world).bot, world(bot.attempts + k - 1).elapsed) == Continue
  {
    PrefixRunsContinue(args, bot, codes, world, k);
    if k > 0 {
      assert |Attack(args, bot, codes, world).tried| <= |codes|;
      FullRunEndsOnCheck(args, bot, codes[..k], k, world);
    }
  }

  /** A run that tried all of its codes and answers `Continue` did so on the check after its last attempt. */
  lemma FullRunEndsOnCheck(args: Args, bot: Bot, pre: seq<string>, k: nat, world: nat -> Observation)
    requires 0 < k == |pre| && Attack(args, bot, pre, world).tried == pre && Attack(args, bot, pre, world).check == Continue
    ensures CheckStopped(args, Attack(args, bot, pre, world).bot, world(bot.attempts + k - 1).elapsed) == Continue
  {
    var p := Attack(args, bot, pre, world);
    assert p.check == CheckStopped(args, p.bot, world(bot.attempts + |p.tried| - 1).elapsed);
  }

  /** The run over the first `k` tried codes tries all of them and ends on a negative check. */
  lemma {:induction false} PrefixRunsContinue(args: Args, bot: Bot, codes: seq<string>, world: nat -> Observation, k: nat)
    requires k < |Attack(args, bot, codes, world).tried|
    ensures Attack(args, bot, codes[..k], world).tried == codes[..k]
    ensures Attack(args, bot, codes[..k], world).check == Continue
    decreases k
  {
    if k > 0 {
      var next := Attempt(bot, codes[0], world(bot.attempts));
      assert codes[..k][1..] == codes[1..][..k - 1];
      PrefixRunsContinue(args, next, codes[1..], world, k - 1);
    }
  }

  /** After a correct passcode the bot sets `stopped`, so the correct code is the last one tried. */
  lemma {:induction false} CorrectCodeIsLast(args: Args, bot: Bot, codes: seq<string>, world: nat -> Observation, k: nat)
    requires k < |Attack(args, bot, codes, world).tried|
    requires world(bot.attempts + k).correct
    ensures k == |Attack(args, bot, codes, world).tried| - 1
    decreases k
  {
    var obs := world(bot.attempts);
    var next := Attempt(bot, codes[0], obs);
    if k == 0 {
      assert CheckStopped(args, next, obs.elapsed) != Continue;
    } else {
      assert CheckStopped(args, next, obs.elapsed) == Continue;
      assert Attack(args, bot, codes, world).tried == [codes[0]] + Attack(args, next, codes[1..], world).tried;
      CorrectCodeIsLast(args, next, codes[1..], world, k - 1);
    }
  }

  /** `crack_brute` from the current state: a prefix of the brute-force candidates is tried. */
  function CrackBrute(args: Args, bot: Bot, world: nat -> Observation): (r: AttackResult)
    requires args.min >= 0
    ensures r.tried <= BruteCodes(args)
    ensures r.sleepFailed <==> args.delay < 0 && |BruteCodes(args)| > 0
  {
    Attack(args, bot, BruteCodes(args), world)
  }

  /** `crack_dict` from the current state over the dictionary's lines: a prefix of its codes is tried. */
  function CrackDict(args: Args, bot: Bot, lines: seq<string>, world: nat -> Observation): (r: AttackResult)
    ensures r.tried <= DictCodes(lines, args.resumedict)
    ensures r.sleepFailed <==> args.delay < 0 && |lines| > Skipped(|lines|, args.resumedict)
  {
    Attack(args, bot, DictCodes(lines, args.resumedict), world)
  }

  /**
   * How `__init__` and `start` end. `DictionaryUnreadable` is the error `open` raises in `crack_dict` when the
   * dictionary cannot be read; a `Finished` result whose `sleepFailed` holds is the error of a negative delay.
   */
  datatype Outcome = Rejected(error: InitError) | NotStarted | DictionaryUnreadable | Finished(result: AttackResult)

  /**
   * `__init__` then `start`: an invalid command line exits; a missing window or a closed passcode dialog
   * ends the run before any attempt; otherwise the chosen attack runs from a fresh state. Exactly one of
   * `brute`/`dict` holds after `init_args`, so `start`'s two `if`s run exactly one attack. `lines` is the
   * dictionary's content, `None` when the file cannot be opened.
   */
  function Run(args: Args, pathExists: string -> bool, windowFound: bool, dialogOpen: bool,
               lines: Option<seq<string>>, world: nat -> Observation): (o: Outcome)
    ensures o.Rejected? <==> InitArgs(args, pathExists).Err?
    ensures o.NotStarted? <==> InitArgs(args, pathExists).Ok? && !(windowFound && dialogOpen)
    ensures o.DictionaryUnreadable? <==>
      InitArgs(args, pathExists).Ok? && windowFound && dialogOpen && !args.brute && lines.None?
    ensures o.Finished? <==>
      InitArgs(args, pathExists).Ok? && windowFound && dialogOpen && (args.brute || lines.Some?)
  {
    match InitArgs(args, pathExists)
    case Err(e) => Rejected(e)
    case Ok(a) =>
      if !windowFound || !dialogOpen then NotStarted
      else if a.brute then Finished(CrackBrute(a, Fresh, world))
      else if lines.None? then DictionaryUnreadable
      else Finished(CrackDict(a, Fresh, lines.value, world))
  }

  /**
   * With no method given `init_args` never checks the default dictionary path, so a missing default
   * dictionary surfaces only when `crack_dict` opens it, after the window and dialog checks.
   */
  lemma DefaultDictionaryMissing(args: Args, pathExists: string -> bool, world: nat -> Observation)
    requires 0 < args.min && args.max <= MaxPasscodeLength && !args.brute && !args.dict
    requires !pathExists(args.dictpath)
    ensures InitArgs(args, pathExists).Ok?
    ensures Run(args, pathExists, true, true, None, world) == DictionaryUnreadable
  {
    DefaultMethodIsDict(args, pathExists);
  }

  /**
   * A finished run tried a prefix of the brute-force candidates (when `brute` was given) or of the dictionary
   * codes (otherwise); `attempts` counts every try, `tries` the incorrect ones, and the last five tried
   * codes are remembered. A negative delay fails before the first code is typed, with that code remembered.
   */
  lemma RunShape(args: Args, pathExists: string -> bool, lines: Option<seq<string>>, world: nat -> Observation)
    requires InitArgs(args, pathExists).Ok? && (args.brute || lines.Some?)
    ensures var o := Run(args, pathExists, true, true, lines, world);
      var codes := if args.brute then BruteCodes(args) else DictCodes(lines.value, args.resumedict);
      && o.Finished?
      && o.result.tried <= codes
      && o.result.bot.attempts == |o.result.tried|
      && o.result.bot.tries == Misses(world, 0, |o.result.tried|)
      && (o.result.sleepFailed <==> args.delay < 0 && |codes| > 0)
      && o.result.bot.lastCodes == Recent(if o.result.sleepFailed then [codes[0]] else o.result.tried)
  {
    var a := InitArgs(args, pathExists).value;
    var codes := if args.brute then BruteCodes(args) else DictCodes(lines.value, args.resumedict);
    RunAttacks(args, pathExists, lines, world);
    AttackFromFresh(a, codes, world);
  }

  /** A valid command line with the window, the dialog and the chosen input present runs one attack, from a fresh state. */
  lemma RunAttacks(args: Args, pathExists: string -> bool, lines: Option<seq<string>>, world: nat -> Observation)
    requires InitArgs(args, pathExists).Ok? && (args.brute || lines.Some?)
    ensures Run(args, pathExists, true, true, lines, world) ==
      Finished(Attack(InitArgs(args, pathExists).value, Fresh,
                      if args.brute then BruteCodes(args) else DictCodes(lines.value, args.resumedict), world))
  {
    var a := InitArgs(args, pathExists).value;
    if args.brute {
      assert a == args;
    } else {
      assert !a.brute && a.resumedict == args.resumedict;
    }
  }

  /** An attack from the fresh state: its counters and memory describe exactly the codes it handled. */
  lemma AttackFromFresh(args: Args, codes: seq<string>, world: nat -> Observation)
    ensures var r := Attack(args, Fresh, codes, world);
      && r.tried <= codes
      && r.bot.attempts == |r.tried|
      && r.bot.tries == Misses(world, 0, |r.tried|)
      && (r.sleepFailed <==> args.delay < 0 && |codes| > 0)
      && r.bot.lastCodes == Recent(if r.sleepFailed then [codes[0]] else r.tried)
  {
    AttackFromEmpty(args, Fresh, codes, world);
  }

  lemma AttackFromEmpty(args: Args, bot: Bot, codes: seq<string>, world: nat -> Observation)
    requires bot.lastCodes == [] && bot.attempts == 0 && bot.tries == 0
    ensures var r := Attack(args, bot, codes, world);
      && r.bot.attempts == |r.tried|
      && r.bot.tries == Misses(world, 0, |r.tried|)
      && r.bot.lastCodes == Recent(if r.sleepFailed then [codes[0]] else r.tried)
  {
    var r := Attack(args, bot, codes, world);
    var handled := if r.sleepFailed then [codes[0]] else r.tried;
    assert bot.lastCodes + handled == handled;
  }
}

=== FILE: crack_passcode_script.dfy ===
/**
 * The stand-alone passcode script of `scripts/crack_passcode.py`: method selection, the pointer parked on
 * the window centre, and the two typing loops with their shared try counter and `--limit` exit. The window
 * rectangle and the dictionary file's lines are inputs; the key presses, clicks and sleeps are recorded
 * as a trace of actions.
 */
module CrackPasscodeScript {
  import opened Wrappers
  import opened Text
  import opened Geometry
  import WindowHandler
  import Enumeration

  /** The parsed command line of the script. */
  datatype ScriptArgs = ScriptArgs(
    limit: Option<int>, brute: bool, min: int, max: int, delay: int, dict: bool, dictpath: Option<string>)

  /** The parser's defaults. */
  const DefaultArgs := ScriptArgs(None, false, 1, 20, 50, false, None)

  datatype Method = Brute | Dict

  /** The two `exit()` paths taken before any input is sent. */
  datatype ArgsError = TwoMethods | NoDictionary

  /** Python truthiness of `args.dictpath`: `None` and the empty string are falsy. */
  predicate PathGiven(p: Option<string>) {
    p.Some? && |p.value| > 0
  }

  /** The argument checks of `main`, in source order; with no method chosen the script brute-forces. */
  function ChooseMethod(args: ScriptArgs): (r: Result<Method, ArgsError>)
    ensures r == Err(TwoMethods) <==> args.brute && args.dict
    ensures r == Err(NoDictionary) <==> !args.brute && args.dict && !PathGiven(args.dictpath)
    ensures r == Ok(Dict) <==> !args.brute && args.dict && PathGiven(args.dictpath)
    ensures r == Ok(Brute) <==> !args.dict
  {
    if args.brute && args.dict then Err(TwoMethods)
    else if args.dict && !PathGiven(args.dictpath) then Err(NoDictionary)
    else if !args.brute && !args.dict then Ok(Brute)
    else if args.brute then Ok(Brute)
    else Ok(Dict)
  }

  /** `string.ascii_letters + string.digits`. */
  const BruteChars := AsciiLetters + Digits

  /** What the script does to the game, in order. */
  datatype Action = MoveAbsolute(to: Point) | RightClick | SendKeys(text: string) | Sleep(ms: int)

  /** The key string `SendKeys` reads as ENTER. */
  const Enter := "~"

  /** `pointer_center`, computed inline by the script. */
  function PointerCenter(d: WindowHandler.Rect): (p: Point)
    ensures p == WindowHandler.AbsoluteCenter(d)
  {
    Point((d.right - d.left) / 2 + d.left, (d.bottom - d.top) / 2 + d.top + 20)
  }

  /** The actions of one attempt; the brute-force loop sleeps once more, before the click. */
  function AttemptActions(m: Method, code: string, delay: int): (r: seq<Action>)
    ensures |r| == AttemptLength(m)
    ensures r[KeysAt(m)] == SendKeys(code) && r[KeysAt(m) + 2] == SendKeys(Enter)
    ensures r[KeysAt(m) - 2] == RightClick
  {
    var typed := [RightClick, Sleep(delay), SendKeys(code), Sleep(delay), SendKeys(Enter), Sleep(delay)];
    if m == Brute then [Sleep(delay)] + typed else typed
  }

  function AttemptLength(m: Method): nat {
    if m == Brute then 7 else 6
  }

  /** Position of the code's `SendKeys` within one attempt. */
  function KeysAt(m: Method): nat {
    if m == Brute then 3 else 2
  }

  /** Reference trace: every code of `codes` attempted, in order, with nothing in between. */
  function Attempts(m: Method, codes: seq<string>, delay: int): seq<Action> {
    if |codes| == 0 then [] else AttemptActions(m, codes[0], delay) + Attempts(m, codes[1..], delay)
  }

  /**
   * How the script ended: every code typed, `exit()` at the limit, or an exception — `product` given a
   * negative length, `open` failing, or `time.sleep` given the negative delay.
   */
  datatype Ending = Exhausted | LimitExit | ProductError | OpenError | SleepError

  datatype Session = Session(actions: seq<Action>, tries: nat, ending: Ending)

  function Min(a: int, b: int): int {
    if a <= b then a else b
  }

  function Max(a: int, b: int): int {
    if a >= b then a else b
  }

  /**
   * How many of `n` codes a loop entered with `tries` already counted attempts: all of them without a
   * truthy limit, otherwise up to the try that reaches the limit, and always at least the first.
   */
  function Attempted(n: nat, limit: Option<int>, tries: nat): (k: nat)
    ensures k <= n
    ensures n > 0 ==> k > 0
  {
    if Truthy(limit) then Min(n, Max(limit.value - tries, 1)) else n
  }

  /** Below the limit, one more code is attempted than from the next try on. */
  lemma AttemptedStep(n: nat, limit: Option<int>, tries: nat)
    requires n > 0 && !(Truthy(limit) && tries + 1 >= limit.value)
    ensures Attempted(n, limit, tries) == Attempted(n - 1, limit, tries + 1) + 1
  {
  }

  /**
   * One typing loop: attempt each code, count it, and `exit()` as soon as a truthy limit is reached.
   * `tries` is the counter's value on entry.
   */
  function TypeCodes(m: Method, codes: seq<string>, limit: Option<int>, delay: int, tries: nat): (s: Session)
    ensures s.ending == Exhausted || s.ending == LimitExit || s.ending == SleepError
    ensures s.ending == SleepError <==> delay < 0 && |codes| > 0
    ensures s.ending == SleepError ==> s.tries == tries && s.actions == BeforeFirstSleep(m)
    ensures s.ending == Exhausted ==> s.tries == tries + |codes|
    ensures s.tries <= tries + |codes|
    decreases |codes|
  {
    if |codes| == 0 then Session([], tries, Exhausted)
    else if delay < 0 then Session(BeforeFirstSleep(m), tries, SleepError)
    else
      var here := AttemptActions(m, codes[0], delay);
      if Truthy(limit) && tries + 1 >= limit.value then Session(here, tries + 1, LimitExit)
      else
        var rest := TypeCodes(m, codes[1..], limit, delay, tries + 1);
        Session(here + rest.actions, rest.tries, rest.ending)
  }

  /**
   * What the first attempt does before its first `time.sleep`: nothing in the brute-force loop, the right
   * click in the dictionary loop. A negative delay makes that sleep raise `ValueError`.
   */
  function BeforeFirstSleep(m: Method): seq<Action> {
    if m == Brute then [] else [RightClick]
  }

  /**
   * With a usable delay the loop attempts exactly the first `Attempted` codes, in order, counts each one, and
   * ends by the limit exactly when the limit is truthy and is reached within the codes. A negative delay
   * ends the loop at the first sleep, before anything is typed or counted.
   */
  lemma TypeCodesShape(m: Method, codes: seq<string>, limit: Option<int>, delay: int, tries: nat)
    ensures var s := TypeCodes(m, codes, limit, delay, tries);
      var k := Attempted(|codes|, limit, tries);
      delay >= 0 || |codes| == 0 ==>
        && s.tries == tries + k
        && s.actions == Attempts(m, codes[..k], delay)
        && (s.ending == LimitExit <==> Truthy(limit) && |codes| >= Max(limit.value - tries, 1))
    ensures delay < 0 && |codes| > 0 ==>
      TypeCodes(m, codes, limit, delay, tries) == Session(BeforeFirstSleep(m), tries, SleepError)
  {
    if delay >= 0 || |codes| == 0 {
      TypeCodesTrace(m, codes, limit, delay, tries);
      TypeCodesEnding(m, codes, limit, delay, tries);
    }
  }

  /** The counter and the trace of the loop. */
  predicate Traced(m: Method, codes: seq<string>, limit: Option<int>, delay: int, tries: nat)
    requires delay >= 0 || |codes| == 0
  {
    var s := TypeCodes(m, codes, limit, delay, tries);
    var k := Attempted(|codes|, limit, tries);
    s.tries == tries + k && s.actions == Attempts(m, codes[..k], delay)
  }

  lemma {:induction false} TypeCodesTrace(m: Method, codes: seq<string>, limit: Option<int>, delay: int, tries: nat)
    requires delay >= 0 || |codes| == 0
    ensures var s := TypeCodes(m, codes, limit, delay, tries);
      var k := Attempted(|codes|, limit, tries);
      s.tries == tries + k && s.actions == Attempts(m, codes[..k], delay)
    decreases |codes|
  {
    if |codes| == 0 {
      assert codes[..0] == [];
    } else if Truthy(limit) && tries + 1 >= limit.value {
      TraceAtLimit(m, codes, limit, delay, tries);
    } else {
      TypeCodesTrace(m, codes[1..], limit, delay, tries + 1);
      TraceStep(m, codes, limit, delay, tries);
    }
    assert Traced(m, codes, limit, delay, tries);
  }

  /** Reaching the limit on the first code: one attempt, then `exit()`. */
  lemma TraceAtLimit(m: Method, codes: seq<string>, limit: Option<int>, delay: int, tries: nat)
    requires |codes| > 0 && Truthy(limit) && tries + 1 >= limit.value && delay >= 0
    ensures Traced(m, codes, limit, delay, tries)
  {
    var here := AttemptActions(m, codes[0], delay);
    assert Attempted(|codes|, limit, tries) == 1;
    assert TypeCodes(m, codes, limit, delay, tries) == Session(here, tries + 1, LimitExit);
    assert Attempts(m, codes[..1], delay) == here by {
      assert codes[..1][1..] == [];
      assert here + [] == here;
    }
  }

  /** Below the limit, the trace is the first attempt followed by the trace of the rest. */
  lemma TraceStep(m: Method, codes: seq<string>, limit: Option<int>, delay: int, tries: nat)
    requires |codes| > 0 && !(Truthy(limit) && tries + 1 >= limit.value) && delay >= 0
    requires Traced(m, codes[1..], limit, delay, tries + 1)
    ensures Traced(m, codes, limit, delay, tries)
  {
    var here := AttemptActions(m, codes[0], delay);
    var rest := TypeCodes(m, codes[1..], limit, delay, tries + 1);
    var k := Attempted(|codes|, limit, tries);
    var k' := Attempted(|codes| - 1, limit, tries + 1);
    assert k == k' + 1 by { AttemptedStep(|codes|, limit, tries); }
    assert TypeCodes(m, codes, limit, delay, tries) == Session(here + rest.actions, rest.tries, rest.ending);
    AttemptsOfPrefix(m, codes, k, delay);
  }

  /** The trace of a non-empty prefix is the first attempt followed by the trace of the rest of the prefix. */
  lemma AttemptsOfPrefix(m: Method, codes: seq<string>, k: nat, delay: int)
    requires 0 < k <= |codes|
    ensures Attempts(m, codes[..k], delay) == AttemptActions(m, codes[0], delay) + Attempts(m, codes[1..][..k - 1], delay)
  {
    assert codes[..k][0] == codes[0] && codes[..k][1..] == codes[1..][..k - 1];
  }

  /** How the loop ends: by the limit only when the delay can be slept and the limit is reached within the codes. */
  lemma {:induction false} TypeCodesEnding(m: Method, codes: seq<string>, limit: Option<int>, delay: int, tries: nat)
    ensures TypeCodes(m, codes, limit, delay, tries).ending == LimitExit <==>
      delay >= 0 && Truthy(limit) && |codes| >= Max(limit.value - tries, 1)
    decreases |codes|
  {
    if |codes| > 0 && delay >= 0 && !(Truthy(limit) && tries + 1 >= limit.value) {
      TypeCodesEnding(m, codes[1..], limit, delay, tries + 1);
    }
  }

  /** The brute-force codes, or `None` when `product` is asked for a negative length. */
  function BruteCodes(min: int, max: int): (r: Option<seq<string>>)
    ensures r.None? <==> min < 0 && min <= max
    ensures r.Some? && min <= max ==> r.value == Enumeration.Candidates(BruteChars, min, max)
    ensures r.Some? && min > max ==> r.value == []
  {
    if min > max then Some([])
    else if min < 0 then None
    else Some(Enumeration.Candidates(BruteChars, min, max))
  }

  /**
   * `main` after parsing: check the arguments, park the pointer on the window centre, then run the chosen
   * loop from a zero try count. `dictionary` is `None` when the file cannot be opened.
   */
  function Run(args: ScriptArgs, window: WindowHandler.Rect, dictionary: Option<seq<string>>)
    : (r: Result<Session, ArgsError>)
    ensures r.Err? <==> ChooseMethod(args).Err?
    ensures r.Err? ==> r.error == ChooseMethod(args).error
    ensures r.Ok? ==> |r.value.actions| > 0 && r.value.actions[0] == MoveAbsolute(PointerCenter(window))
  {
    match ChooseMethod(args)
    case Err(e) => Err(e)
    case Ok(m) =>
      var park := [MoveAbsolute(PointerCenter(window))];
      var codes := if m == Brute then BruteCodes(args.min, args.max) else
        if dictionary.Some? then Some(StrippedLines(dictionary.value)) else None;
      if codes.None? then Ok(Session(park, 0, if m == Brute then ProductError else OpenError))
      else
        var s := TypeCodes(m, codes.value, args.limit, args.delay, 0);
        Ok(s.(actions := park + s.actions))
  }

  /**
   * A brute-force run with a usable length range types the first `Attempted` candidates of the 62-letter
   * alphabet in length-major `product` order, and only the limit can end it early. The range is never
   * empty, so a negative delay raises at the first sleep, right after the pointer is parked.
   */
  lemma BruteRun(args: ScriptArgs, window: WindowHandler.Rect, dictionary: Option<seq<string>>)
    requires !args.dict && 0 <= args.min <= args.max
    ensures var r := Run(args, window, dictionary);
      var codes := Enumeration.Candidates(BruteChars, args.min, args.max);
      var k := Attempted(|codes|, args.limit, 0);
      && r.Ok?
      && (args.delay >= 0 ==>
        && r.value.tries == k
        && r.value.actions == [MoveAbsolute(PointerCenter(window))] + Attempts(Brute, codes[..k], args.delay)
        && (r.value.ending == LimitExit <==> Truthy(args.limit) && |codes| >= Max(args.limit.value, 1)))
      && (args.delay < 0 ==> r.value == Session([MoveAbsolute(PointerCenter(window))], 0, SleepError))
  {
    var codes := Enumeration.Candidates(BruteChars, args.min, args.max);
    BruteAlphabet();
    Enumeration.CandidatesNonEmpty(BruteChars, args.min, args.max);
    TypeCodesShape(Brute, codes, args.limit, args.delay, 0);
  }

  /**
   * A dictionary run types the stripped lines in file order, up to the limit; with a negative delay it
   * right-clicks once and raises at the first sleep (an empty file sleeps never and ends at once).
   */
  lemma DictRun(args: ScriptArgs, window: WindowHandler.Rect, lines: seq<string>)
    requires !args.brute && args.dict && PathGiven(args.dictpath)
    ensures var r := Run(args, window, Some(lines));
      var k := Attempted(|lines|, args.limit, 0);
      && r.Ok?
      && (args.delay >= 0 || |lines| == 0 ==>
        && r.value.tries == k
        && r.value.actions == [MoveAbsolute(PointerCenter(window))] + Attempts(Dict, StrippedLines(lines)[..k], args.delay))
      && (args.delay < 0 && |lines| > 0 ==>
        r.value == Session([MoveAbsolute(PointerCenter(window)), RightClick], 0, SleepError))
  {
    TypeCodesShape(Dict, StrippedLines(lines), args.limit, args.delay, 0);
  }

  /** A negative minimum length with a non-empty range makes `product` raise before the first try. */
  lemma NegativeMinCrashes(args: ScriptArgs, window: WindowHandler.Rect, dictionary: Option<seq<string>>)
    requires !args.dict && args.min < 0 && args.min <= args.max
    ensures Run(args, window, dictionary) == Ok(Session([MoveAbsolute(PointerCenter(window))], 0, ProductError))
  {
  }

  /**
   * A negative limit is truthy and already reached by the first try, so exactly one code is typed (none,
   * when a negative delay fails the first sleep).
   */
  lemma NegativeLimitTriesOnce(codes: seq<string>, limit: Option<int>, m: Method, delay: int)
    requires limit.Some? && limit.value < 0 && |codes| > 0
    ensures TypeCodes(m, codes, limit, delay, 0).tries == if delay >= 0 then 1 else 0
    ensures TypeCodes(m, codes, limit, delay, 0).ending == if delay >= 0 then LimitExit else SleepError
  {
    TypeCodesShape(m, codes, limit, delay, 0);
  }

  /** The texts of the `SendKeys` actions, in order. */
  function Keystrokes(actions: seq<Action>): (r: seq<string>)
    ensures |r| <= |actions|
  {
    if |actions| == 0 then []
    else (if actions[0].SendKeys? then [actions[0].text] else []) + Keystrokes(actions[1..])
  }

  lemma {:induction false} KeystrokesAppend(a: seq<Action>, b: seq<Action>)
    ensures Keystrokes(a + b) == Keystrokes(a) + Keystrokes(b)
    decreases |a|
  {
    if |a| == 0 {
      assert a + b == b;
    } else {
      var head := if a[0].SendKeys? then [a[0].text] else [];
      var ka, kb := Keystrokes(a[1..]), Keystrokes(b);
      assert Keystrokes(a[1..] + b) == ka + kb by { KeystrokesAppend(a[1..], b); }
      assert Keystrokes(a + b) == head + Keystrokes(a[1..] + b) by {
        assert (a + b)[0] == a[0] && (a + b)[1..] == a[1..] + b;
      }
      assert head + (ka + kb) == (head + ka) + kb;
    }
  }

  lemma KeystrokesOfAttempt(m: Method, code: string, delay: int)
    ensures Keystrokes(AttemptActions(m, code, delay)) == [code, Enter]
  {
    var typed := [RightClick, Sleep(delay), SendKeys(code), Sleep(delay), SendKeys(Enter), Sleep(delay)];
    assert Keystrokes(typed[5..]) == [] by { assert typed[5..][1..] == []; }
    assert Keystrokes(typed[4..]) == [Enter] by { assert typed[4..][1..] == typed[5..]; }
    assert Keystrokes(typed[3..]) == [Enter] by { assert typed[3..][1..] == typed[4..]; }
    assert Keystrokes(typed[2..]) == [code, Enter] by { assert typed[2..][1..] == typed[3..]; }
    assert Keystrokes(typed[1..]) == [code, Enter] by { assert typed[1..][1..] == typed[2..]; }
    assert Keystrokes(typed) == [code, Enter];
    if m == Brute {
      assert ([Sleep(delay)] + typed)[1..] == typed;
    }
  }

  /** `keys` is each of `codes` followed by ENTER. */
  predicate Alternates(keys: seq<string>, codes: seq<string>) {
    |keys| == 2 * |codes| && forall i :: 0 <= i < |codes| ==> keys[2 * i] == codes[i] && keys[2 * i + 1] == Enter
  }

  lemma AlternatesCons(codes: seq<string>, rest: seq<string>)
    requires |codes| > 0 && Alternates(rest, codes[1..])
    ensures Alternates([codes[0], Enter] + rest, codes)
  {
    var keys := [codes[0], Enter] + rest;
    forall i | 0 < i < |codes|
      ensures keys[2 * i] == codes[i] && keys[2 * i + 1] == Enter
    {
      assert keys[2 * i] == rest[2 * (i - 1)] && keys[2 * i + 1] == rest[2 * (i - 1) + 1];
      assert codes[1..][i - 1] == codes[i];
    }
  }

  /** The typed key strings alternate: each code, then ENTER. */
  lemma {:induction false} KeystrokesOfAttempts(m: Method, codes: seq<string>, delay: int)
    ensures Alternates(Keystrokes(Attempts(m, codes, delay)), codes)
  {
    if |codes| > 0 {
      var rest := Keystrokes(Attempts(m, codes[1..], delay));
      assert Alternates(rest, codes[1..]) by { KeystrokesOfAttempts(m, codes[1..], delay); }
      assert Keystrokes(Attempts(m, codes, delay)) == [codes[0], Enter] + rest by {
        KeystrokesOfAttempt(m, codes[0], delay);
        KeystrokesAppend(AttemptActions(m, codes[0], delay), Attempts(m, codes[1..], delay));
      }
      AlternatesCons(codes, rest);
    }
  }

  /** The script's alphabet: 62 characters, letters before digits. */
  lemma BruteAlphabet()
    ensures |BruteChars| == 62
    ensures BruteChars[0] == 'a' && BruteChars[52] == '0'
  {
  }
}

=== FILE: detection.dfy ===
/**
 * The grouping step at the end of `Detector.analyze` (`ai/detection.py`): the detector's flat list of
 * detections becomes a map from name to the name's boxes. Model loading and inference are not modelled;
 * the flat list is the input.
 */
module Detection {
  import opened Geometry

  /** One entry of the detector's output; only `name` and `box_points` are read. */
  datatype Detection = Detection(name: string, boxPoints: Box)

  /** `detected_entities`: name -> boxes of that name. */
  type Entities = map<string, seq<Box>>

  /** The labels occurring in a detection list. */
  function Names(ds: seq<Detection>): set<string> {
    set i | 0 <= i < |ds| :: ds[i].name
  }

  /** Reference definition: the boxes of the detections labelled `name`, in input order. */
  function BoxesOf(ds: seq<Detection>, name: string): seq<Box> {
    if |ds| == 0 then []
    else BoxesOf(ds[..|ds| - 1], name) + (if ds[|ds| - 1].name == name then [ds[|ds| - 1].boxPoints] else [])
  }

  lemma {:induction false} BoxesOfEmptyIffAbsent(ds: seq<Detection>, name: string)
    ensures |BoxesOf(ds, name)| == 0 <==> name !in Names(ds)
  {
    if |ds| > 0 {
      var init := ds[..|ds| - 1];
      BoxesOfEmptyIffAbsent(init, name);
      NamesSnoc(ds);
    }
  }

  /** The names of a non-empty list are those of all but its last entry, plus the last entry's. */
  lemma NamesSnoc(ds: seq<Detection>)
    requires |ds| > 0
    ensures Names(ds) == Names(ds[..|ds| - 1]) + {ds[|ds| - 1].name}
  {
    var init := ds[..|ds| - 1];
    forall n | n in Names(ds) ensures n in Names(init) + {ds[|ds| - 1].name} {
      var i :| 0 <= i < |ds| && ds[i].name == n;
      if i < |ds| - 1 { assert init[i] == ds[i]; }
    }
    forall n | n in Names(init) ensures n in Names(ds) {
      var i :| 0 <= i < |init| && init[i].name == n;
      assert ds[i] == init[i];
    }
  }

  /**
   * The grouping loop: for each detection in order, create the name's list if it is missing,
   * then append the detection's box to it. Written as a left fold over the list.
   */
  function Group(ds: seq<Detection>): (e: Entities)
    ensures e.Keys == Names(ds)
    ensures forall l :: l in e ==> e[l] == BoxesOf(ds, l)
    ensures forall l :: l in e ==> |e[l]| > 0
  {
    if |ds| == 0 then map[]
    else
      var init := ds[..|ds| - 1];
      var d := ds[|ds| - 1];
      var before := Group(init);
      var created := if d.name in before then before else before[d.name := []];
      var e := created[d.name := created[d.name] + [d.boxPoints]];
      assert e.Keys == Names(ds) by { NamesSnoc(ds); }
      assert created[d.name] == BoxesOf(init, d.name) by {
        BoxesOfEmptyIffAbsent(init, d.name);
      }
      assert forall l :: l in e ==> e[l] == BoxesOf(ds, l) by {
        forall l | l in e ensures e[l] == BoxesOf(ds, l) {
          assert BoxesOf(ds, l) == BoxesOf(init, l) + (if d.name == l then [d.boxPoints] else []);
        }
      }
      e
  }

  /**
   * The labels in the order the dictionary first received them (Python dicts keep insertion order).
   * That they are distinct and are exactly the detected names is `LabelsAreTheKeys`.
   */
  function Labels(ds: seq<Detection>): (r: seq<string>)
    ensures |r| <= |ds|
    ensures |ds| > 0 ==> |r| > 0 && r[0] == ds[0].name
  {
    if |ds| == 0 then []
    else
      var init := Labels(ds[..|ds| - 1]);
      assert |ds| > 1 ==> ds[..|ds| - 1][0] == ds[0];
      if ds[|ds| - 1].name in init then init else init + [ds[|ds| - 1].name]
  }

  predicate Distinct(s: seq<string>) {
    forall i, j :: 0 <= i < j < |s| ==> s[i] != s[j]
  }

  /** Number of boxes held under the keys `ks`. */
  function TotalBoxes(e: Entities, ks: seq<string>): nat
    requires forall k :: k in ks ==> k in e
  {
    if |ks| == 0 then 0 else |e[ks[0]]| + TotalBoxes(e, ks[1..])
  }

  /** Number of detections whose name is one of `ks`, counted name by name. */
  function CountUnder(ds: seq<Detection>, ks: seq<string>): nat {
    if |ks| == 0 then 0 else |BoxesOf(ds, ks[0])| + CountUnder(ds, ks[1..])
  }

  lemma {:induction false} CountUnderAppend(ds: seq<Detection>, d: Detection, ks: seq<string>)
    requires Distinct(ks)
    ensures CountUnder(ds + [d], ks) == CountUnder(ds, ks) + (if d.name in ks then 1 else 0)
  {
    if |ks| > 0 {
      assert (ds + [d])[..|ds + [d]| - 1] == ds;
      assert Distinct(ks[1..]) by {
        forall i, j | 0 <= i < j < |ks[1..]| ensures ks[1..][i] != ks[1..][j] {
          assert ks[1..][i] == ks[i + 1] && ks[1..][j] == ks[j + 1];
        }
      }
      CountUnderAppend(ds, d, ks[1..]);
      if d.name == ks[0] {
        forall j | 0 <= j < |ks[1..]| ensures ks[1..][j] != d.name {
          assert ks[1..][j] == ks[j + 1];
        }
      } else {
        assert d.name in ks <==> d.name in ks[1..] by {
          if d.name in ks {
            var j :| 0 <= j < |ks| && ks[j] == d.name;
            assert j > 0 && ks[1..][j - 1] == d.name;
          }
        }
      }
    }
  }

  /** Counting name by name over distinct labels that cover every detection counts every detection once. */
  lemma {:induction false} CountUnderCovering(ds: seq<Detection>, ks: seq<string>)
    requires Distinct(ks)
    requires forall i :: 0 <= i < |ds| ==> ds[i].name in ks
    ensures CountUnder(ds, ks) == |ds|
  {
    if |ds| == 0 {
      CountUnderEmpty(ks);
    } else {
      var init := ds[..|ds| - 1];
      assert init + [ds[|ds| - 1]] == ds;
      CountUnderCovering(init, ks);
      CountUnderAppend(init, ds[|ds| - 1], ks);
    }
  }

  lemma {:induction false} CountUnderEmpty(ks: seq<string>)
    ensures CountUnder([], ks) == 0
  {
    if |ks| > 0 {
      CountUnderEmpty(ks[1..]);
    }
  }

  lemma {:induction false} TotalIsCount(ds: seq<Detection>, ks: seq<string>)
    requires forall k :: k in ks ==> k in Group(ds)
    ensures TotalBoxes(Group(ds), ks) == CountUnder(ds, ks)
  {
    if |ks| > 0 {
      TotalIsCount(ds, ks[1..]);
    }
  }

  lemma {:induction false} LabelsAreTheKeys(ds: seq<Detection>)
    ensures Distinct(Labels(ds))
    ensures forall l :: l in Labels(ds) <==> l in Names(ds)
  {
    if |ds| > 0 {
      var init := ds[..|ds| - 1];
      LabelsAreTheKeys(init);
      forall l ensures l in Names(ds) <==> l in Names(init) || l == ds[|ds| - 1].name {
        if l in Names(ds) {
          var i :| 0 <= i < |ds| && ds[i].name == l;
          if i < |ds| - 1 { assert init[i] == ds[i]; }
        }
        if l in Names(init) {
          var i :| 0 <= i < |init| && init[i].name == l;
          assert ds[i] == init[i];
        }
      }
    }
  }

  /**
   * Nothing is dropped by the grouping, not even the first detection of a name: the boxes held under
   * all labels, in insertion order, number exactly as many as the detections.
   */
  lemma GroupKeepsEveryDetection(ds: seq<Detection>)
    ensures forall l :: l in Labels(ds) <==> l in Group(ds)
    ensures TotalBoxes(Group(ds), Labels(ds)) == |ds|
  {
    LabelsAreTheKeys(ds);
    var ks := Labels(ds);
    forall i | 0 <= i < |ds| ensures ds[i].name in ks {
      assert ds[i].name in Names(ds);
    }
    CountUnderCovering(ds, ks);
    TotalIsCount(ds, ks);
  }

  /** No detections, no entities. */
  lemma GroupOfNothing()
    ensures Group([]) == map[]
  {
  }

  /** Scenario: two zombie boxes and a tree; the zombie list keeps detector order. */
  lemma GroupScenario()
    ensures Group([Detection("zombie", Box(0, 0, 10, 10)), Detection("tree", Box(5, 5, 6, 6)),
                   Detection("zombie", Box(0, 0, 30, 40))])
         == map["zombie" := [Box(0, 0, 10, 10), Box(0, 0, 30, 40)], "tree" := [Box(5, 5, 6, 6)]]
  {
    var d0 := Detection("zombie", Box(0, 0, 10, 10));
    var d1 := Detection("tree", Box(5, 5, 6, 6));
    var d2 := Detection("zombie", Box(0, 0, 30, 40));
    assert [d0, d1, d2][..2] == [d0, d1];
    assert [d0, d1][..1] == [d0];
    assert [d0][..0] == [];
    assert Group([d0][..0]) == map[];
    assert [] + [d0.boxPoints] == [d0.boxPoints];
    assert Group([d0]) == map["zombie" := [d0.boxPoints]];
    assert "tree" != "zombie";
    assert [] + [d1.boxPoints] == [d1.boxPoints];
    assert [d0.boxPoints] + [d2.boxPoints] == [d0.boxPoints, d2.boxPoints];
    assert Group([d0, d1]) == map["zombie" := [d0.boxPoints], "tree" := [d1.boxPoints]];
  }
}

=== FILE: enumeration.dfy ===
/**
 * Brute-force candidate enumeration shared by both passcode tools:
 * `for length in range(lo, hi + 1): for attempt in product(chars, repeat=length): "".join(attempt)`.
 */
module Enumeration {
  import opened Arithmetic

  function Power(b: nat, e: nat): nat {
    if e == 0 then 1 else b * Power(b, e - 1)
  }

  /** `[c + t for t in tails]` */
  function PrefixAll(c: char, tails: seq<string>): (r: seq<string>)
    ensures |r| == |tails|
    ensures forall i :: 0 <= i < |r| ==> r[i] == [c] + tails[i]
  {
    seq(|tails|, i requires 0 <= i < |tails| => [c] + tails[i])
  }

  /**
   * `[c + t for c in cs for t in tails]`: the first character varies slowest. Which entry sits at which
   * index is `PrefixEachIndex`.
   */
  function PrefixEach(cs: string, tails: seq<string>): (r: seq<string>)
    ensures |r| == |cs| * |tails|
    decreases |cs|
  {
    if |cs| == 0 then []
    else
      var r := PrefixAll(cs[0], tails) + PrefixEach(cs[1..], tails);
      assert |r| == |tails| + (|cs| - 1) * |tails|;
      r
  }

  /** The strings of `itertools.product(cs, repeat=n)`, joined, in the order the product yields them. */
  function Product(cs: string, n: nat): (r: seq<string>)
    ensures |r| == Power(|cs|, n)
    ensures forall i :: 0 <= i < |r| ==> |r[i]| == n
    ensures forall i, k :: 0 <= i < |r| && 0 <= k < n ==> r[i][k] in cs
    decreases n
  {
    if n == 0 then [""]
    else
      var tails := Product(cs, n - 1);
      var r := PrefixEach(cs, tails);
      PrefixEachShape(cs, tails, n - 1, cs);
      r
  }

  /** A product step over characters of `alphabet` and tails of length `m` over `alphabet` yields strings of length `m + 1` over it. */
  lemma {:induction false} PrefixEachShape(cs: string, tails: seq<string>, m: nat, alphabet: string)
    requires forall j :: 0 <= j < |cs| ==> cs[j] in alphabet
    requires forall i :: 0 <= i < |tails| ==> |tails[i]| == m
    requires forall i, k :: 0 <= i < |tails| && 0 <= k < m ==> tails[i][k] in alphabet
    ensures forall i :: 0 <= i < |PrefixEach(cs, tails)| ==> |PrefixEach(cs, tails)[i]| == m + 1
    ensures forall i, k :: 0 <= i < |PrefixEach(cs, tails)| && 0 <= k < m + 1 ==> PrefixEach(cs, tails)[i][k] in alphabet
    decreases |cs|
  {
    if |cs| > 0 {
      var first := PrefixAll(cs[0], tails);
      var rest := PrefixEach(cs[1..], tails);
      assert forall j :: 0 <= j < |cs[1..]| ==> cs[1..][j] in alphabet by {
        assert forall j :: 0 <= j < |cs[1..]| ==> cs[1..][j] == cs[j + 1];
      }
      PrefixEachShape(cs[1..], tails, m, alphabet);
      PrefixAllShape(cs[0], tails, m, alphabet);
      assert PrefixEach(cs, tails) == first + rest;
    }
  }

  lemma PrefixAllShape(c: char, tails: seq<string>, m: nat, alphabet: string)
    requires c in alphabet
    requires forall i :: 0 <= i < |tails| ==> |tails[i]| == m
    requires forall i, k :: 0 <= i < |tails| && 0 <= k < m ==> tails[i][k] in alphabet
    ensures forall i :: 0 <= i < |PrefixAll(c, tails)| ==> |PrefixAll(c, tails)[i]| == m + 1
    ensures forall i, k :: 0 <= i < |PrefixAll(c, tails)| && 0 <= k < m + 1 ==> PrefixAll(c, tails)[i][k] in alphabet
  {
    forall i, k | 0 <= i < |tails| && 0 <= k < m + 1
      ensures PrefixAll(c, tails)[i][k] in alphabet
    {
      if k > 0 {
        assert PrefixAll(c, tails)[i][k] == tails[i][k - 1];
      }
    }
  }

  /** The odometer order of `product`: entry `i` is character `i / |tails|` followed by tail `i % |tails|`. */
  lemma {:induction false} PrefixEachIndex(cs: string, tails: seq<string>, i: nat)
    requires i < |cs| * |tails|
    ensures |tails| > 0
    ensures i / |tails| < |cs|
    ensures PrefixEach(cs, tails)[i] == [cs[i / |tails|]] + tails[i % |tails|]
    decreases |cs|
  {
    var n := |tails|;
    var head := PrefixAll(cs[0], tails);
    if i < n {
      assert i / n == 0 && i % n == i;
    } else {
      assert (|cs| - 1) * n == |cs| * n - n;
      PrefixEachIndex(cs[1..], tails, i - n);
      DivModShift(i, n);
    }
  }

  lemma DivModShift(i: nat, n: nat)
    requires 0 < n <= i
    ensures (i - n) / n == i / n - 1 && (i - n) % n == i % n
  {
    var q, r := i / n, i % n;
    assert i == q * n + r;
    assert i - n == (q - 1) * n + r;
    DivModUnique(i - n, n, q - 1, r);
  }

  /** Position in `product` order: the first character is the slowest digit, the rest is a shorter product. */
  lemma ProductOrder(cs: string, n: nat, i: nat)
    requires n > 0 && i < |Product(cs, n)|
    ensures var p := Power(|cs|, n - 1);
      p > 0 && Product(cs, n)[i] == [cs[i / p]] + Product(cs, n - 1)[i % p]
  {
    PrefixEachIndex(cs, Product(cs, n - 1), i);
  }

  lemma {:induction false} PrefixEachContains(cs: string, tails: seq<string>, j: nat, t: nat)
    requires j < |cs| && t < |tails|
    ensures [cs[j]] + tails[t] in PrefixEach(cs, tails)
    decreases |cs|
  {
    if j == 0 {
      assert PrefixAll(cs[0], tails)[t] == [cs[0]] + tails[t];
    } else {
      PrefixEachContains(cs[1..], tails, j - 1, t);
    }
  }

  /** Every string of length `n` over `cs` is produced. */
  lemma {:induction false} ProductComplete(cs: string, s: string)
    requires forall k :: 0 <= k < |s| ==> s[k] in cs
    ensures s in Product(cs, |s|)
    decreases |s|
  {
    if |s| == 0 {
      assert s == "";
    } else {
      var tail := s[1..];
      var tails := Product(cs, |s| - 1);
      assert tail in tails by {
        assert forall k :: 0 <= k < |tail| ==> tail[k] == s[k + 1];
        ProductComplete(cs, tail);
      }
      var t :| 0 <= t < |tails| && tails[t] == tail;
      var j :| 0 <= j < |cs| && cs[j] == s[0];
      assert [s[0]] + tail in PrefixEach(cs, tails) by { PrefixEachContains(cs, tails, j, t); }
      assert Product(cs, |s|) == PrefixEach(cs, tails);
      assert s == [s[0]] + tail;
    }
  }

  /** `b^lo + b^(lo+1) + ... + b^hi`: how many strings over `b` characters have a length in `lo..hi`. */
  function PowerSum(b: nat, lo: nat, hi: int): nat
    decreases hi - lo
  {
    if lo > hi then 0 else Power(b, lo) + PowerSum(b, lo + 1, hi)
  }

  /** Lengths `lo..hi`, shortest first, each length in `product` order. */
  function Candidates(cs: string, lo: nat, hi: int): (r: seq<string>)
    ensures |r| == PowerSum(|cs|, lo, hi)
    ensures forall i :: 0 <= i < |r| ==> lo <= |r[i]| <= hi
    ensures forall i, k :: 0 <= i < |r| && 0 <= k < |r[i]| ==> r[i][k] in cs
    ensures forall i, j :: 0 <= i < j < |r| ==> |r[i]| <= |r[j]|
    decreases hi - lo
  {
    if lo > hi then []
    else
      var here := Product(cs, lo);
      var rest := Candidates(cs, lo + 1, hi);
      var r := here + rest;
      assert forall i :: 0 <= i < |r| ==> r[i] == if i < |here| then here[i] else rest[i - |here|];
      r
  }

  /** `block` occurs in `r` starting at index `start`. */
  ghost predicate BlockAt<T>(r: seq<T>, start: nat, block: seq<T>) {
    start + |block| <= |r| && r[start..start + |block|] == block
  }

  /**
   * The candidates are the products for `lo`, `lo + 1`, ..., `hi`, one after the other: the block of length
   * `n` starts after all shorter lengths and is exactly `product(cs, repeat=n)`.
   */
  lemma {:induction false} CandidatesInProductOrder(cs: string, lo: nat, hi: int, n: nat)
    requires lo <= n <= hi
    ensures BlockAt(Candidates(cs, lo, hi), PowerSum(|cs|, lo, n - 1), Product(cs, n))
    decreases n - lo
  {
    var here := Product(cs, lo);
    var rest := Candidates(cs, lo + 1, hi);
    assert Candidates(cs, lo, hi) == here + rest;
    if n > lo {
      CandidatesInProductOrder(cs, lo + 1, hi, n);
      var start' := PowerSum(|cs|, lo + 1, n - 1);
      assert PowerSum(|cs|, lo, n - 1) == |here| + start';
      BlockAfter(here, rest, start', Product(cs, n));
    } else {
      assert PowerSum(|cs|, lo, n - 1) == 0;
      BlockFirst(here, rest);
    }
  }

  lemma BlockAfter<T>(a: seq<T>, b: seq<T>, k: nat, block: seq<T>)
    requires BlockAt(b, k, block)
    ensures BlockAt(a + b, |a| + k, block)
  {
    assert (a + b)[|a| + k..|a| + k + |block|] == b[k..k + |block|];
  }

  lemma BlockFirst<T>(a: seq<T>, b: seq<T>)
    ensures BlockAt(a + b, 0, a)
  {
    assert (a + b)[0..|a|] == a;
  }

  lemma {:induction false} PowerPositive(b: nat, e: nat)
    requires b > 0
    ensures Power(b, e) > 0
    decreases e
  {
    if e > 0 {
      PowerPositive(b, e - 1);
    }
  }

  /** A non-empty alphabet and a non-empty range of lengths give at least one candidate. */
  lemma CandidatesNonEmpty(cs: string, lo: nat, hi: int)
    requires |cs| > 0 && lo <= hi
    ensures |Candidates(cs, lo, hi)| > 0
  {
    PowerPositive(|cs|, lo);
  }

  /** Exactly the strings over `cs` whose length lies in `lo..hi` are candidates. */
  lemma {:induction false} CandidatesComplete(cs: string, lo: nat, hi: int, s: string)
    requires lo <= |s| <= hi
    requires forall k :: 0 <= k < |s| ==> s[k] in cs
    ensures s in Candidates(cs, lo, hi)
    decreases hi - lo
  {
    if |s| == lo {
      ProductComplete(cs, s);
    } else {
      CandidatesComplete(cs, lo + 1, hi, s);
    }
  }

  /** With no characters nothing of positive length can be built; length 0 yields the one empty string. */
  lemma ProductOfNothing(n: nat)
    ensures Product("", n) == if n == 0 then [""] else []
  {
    if n > 0 {
      assert |Product("", n)| == 0 * Power(0, n - 1);
    }
  }
}

=== FILE: geometry.dfy ===
/** Integer screen geometry shared by the window helpers, the detector and the shooting bot. */
module Geometry {

  /** A pixel position (or a pixel displacement). */
  datatype Point = Point(x: int, y: int)

  /** A detector bounding box, `box_points` = [x1, y1, x2, y2] in image pixels, origin top-left. */
  datatype Box = Box(x1: int, y1: int, x2: int, y2: int)

  /** Python's `n // 2`: division rounding towards negative infinity. */
  function Half(n: int): (h: int)
    ensures 2 * h <= n < 2 * h + 2
  {
    n / 2
  }

  /** `(x2 - x1) * (y2 - y1)`, the size measure the shooting bot compares boxes by. */
  function Area(b: Box): int {
    (b.x2 - b.x1) * (b.y2 - b.y1)
  }

  /** The integer centre `(x1 + (x2 - x1) // 2, y1 + (y2 - y1) // 2)` of a box. */
  function Center(b: Box): (c: Point)
    ensures 2 * (c.x - b.x1) <= b.x2 - b.x1 < 2 * (c.x - b.x1) + 2
    ensures 2 * (c.y - b.y1) <= b.y2 - b.y1 < 2 * (c.y - b.y1) + 2
    ensures b.x1 <= b.x2 ==> b.x1 <= c.x <= b.x2
    ensures b.y1 <= b.y2 ==> b.y1 <= c.y <= b.y2
  {
    Point(Half(b.x2 - b.x1) + b.x1, Half(b.y2 - b.y1) + b.y1)
  }
}

=== FILE: key_watcher.dfy ===
/**
 * The ESC key watcher of `io/key_watcher.py` as a state machine over {hooked, quitPosted, stopRequested}.
 * The message pump and its thread are not modelled; key-down events are delivered to the handler
 * one at a time while the keyboard hook is installed.
 */
module KeyWatcher {

  /** Virtual key code of ESC. */
  const EscKeyId := 27

  /** Which callback the hook manager calls on key-down. */
  datatype Handler = NoHandler | OnKeyboardEvent

  datatype Watcher = Watcher(keyDown: Handler, hooked: bool, quitPosted: bool, stopRequested: bool)

  /** `__init__`: register `on_keyboard_event` as the key-down callback, then hook the keyboard. */
  function Create(): (w: Watcher)
    ensures w.keyDown == OnKeyboardEvent && w.hooked
    ensures !w.quitPosted && !w.stopRequested
  {
    Watcher(OnKeyboardEvent, true, false, false)
  }

  /** `shutdown`: post the quit message that ends the pump, then unhook the keyboard. */
  function Shutdown(w: Watcher): (r: Watcher)
    ensures r.quitPosted && !r.hooked
    ensures r.stopRequested == w.stopRequested && r.keyDown == w.keyDown
  {
    w.(quitPosted := true, hooked := false)
  }

  /**
   * `on_keyboard_event`: ESC calls `stop_func` and then shuts the watcher down; any other key does nothing.
   * `stopRaises` says whether `stop_func` raises: the exception skips `shutdown`, and the `finally`
   * clause's `return True` discards it. The second component is the handler's return value.
   */
  function OnKey(w: Watcher, keyId: int, stopRaises: bool): (r: (Watcher, bool))
    ensures r.1
    ensures keyId == EscKeyId && !stopRaises ==> r.0.stopRequested && r.0.quitPosted && !r.0.hooked
    ensures keyId != EscKeyId || stopRaises ==> r.0 == w
    ensures r.0.keyDown == w.keyDown
  {
    if keyId == EscKeyId then
      if stopRaises then (w, true)
      else (Shutdown(w.(stopRequested := true)), true)
    else (w, true)
  }

  /**
   * Delivery of a batch of key-down events: the hook calls the handler only while it is installed.
   * Every caller in the repository passes a `stop_func` that only sets a flag, so it never raises here.
   */
  function Deliver(w: Watcher, keys: seq<int>): (r: Watcher)
    ensures w.stopRequested ==> r.stopRequested
    ensures !w.hooked ==> r == w
    ensures r.keyDown == w.keyDown
    decreases |keys|
  {
    if |keys| == 0 || !w.hooked then w
    else Deliver(OnKey(w, keys[0], false).0, keys[1..])
  }

  /** The watcher is hooked exactly until a stop has been requested. */
  predicate Consistent(w: Watcher) {
    w.hooked <==> !w.stopRequested
  }

  lemma {:induction false} DeliverConsistent(w: Watcher, keys: seq<int>)
    requires Consistent(w)
    ensures Consistent(Deliver(w, keys))
    decreases |keys|
  {
    if |keys| > 0 && w.hooked {
      DeliverConsistent(OnKey(w, keys[0], false).0, keys[1..]);
    }
  }

  /** An ESC delivered to a hooked watcher stops it for good; later keys have no effect. */
  lemma {:induction false} DeliverEsc(w: Watcher, keys: seq<int>)
    requires w.hooked
    requires EscKeyId in keys
    ensures Deliver(w, keys).stopRequested && !Deliver(w, keys).hooked && Deliver(w, keys).quitPosted
    decreases |keys|
  {
    if keys[0] == EscKeyId {
    } else {
      assert EscKeyId in keys[1..];
      DeliverEsc(OnKey(w, keys[0], false).0, keys[1..]);
    }
  }

  /** Without ESC nothing changes. */
  lemma {:induction false} DeliverWithoutEsc(w: Watcher, keys: seq<int>)
    requires EscKeyId !in keys
    ensures Deliver(w, keys) == w
    decreases |keys|
  {
    if |keys| > 0 && w.hooked {
      assert EscKeyId !in keys[1..];
      DeliverWithoutEsc(w, keys[1..]);
    }
  }
}

=== FILE: text.dfy ===
/** The pieces of Python's `string` module and of `str.strip()` that the passcode tools use. */
module Text {

  /** The code points `lo..hi` in increasing order. */
  function CharRange(lo: char, hi: char): (r: string)
    requires hi as int < 0xD800
    ensures |r| == if lo <= hi then hi as int - lo as int + 1 else 0
    ensures forall i :: 0 <= i < |r| ==> r[i] as int == lo as int + i
    decreases hi as int - lo as int
  {
    if lo > hi then ""
    else if lo == hi then [lo]
    else [lo] + CharRange((lo as int + 1) as char, hi)
  }

  lemma CharRangeMembers(lo: char, hi: char, c: char)
    requires hi as int < 0xD800
    ensures c in CharRange(lo, hi) <==> lo <= c <= hi
  {
    var r := CharRange(lo, hi);
    if lo <= c <= hi {
      assert r[c as int - lo as int] == c;
    }
  }

  /** `string.digits` */
  const Digits := "0123456789"
  /** `string.ascii_lowercase` */
  const AsciiLowercase := "abcdefghijklmnopqrstuvwxyz"
  /** `string.ascii_uppercase` */
  const AsciiUppercase := "ABCDEFGHIJKLMNOPQRSTUVWXYZ"
  /** `string.ascii_letters` */
  const AsciiLetters := AsciiLowercase + AsciiUppercase
  /** `string.punctuation`: the printable ASCII characters that are neither letters, digits nor space. */
  const Punctuation := "!\"#$%&'()*+,-./:;<=>?@[\\]^_`{|}~"

  /** The characters `str.strip()` removes when called without arguments (Python's `str.isspace`). */
  predicate IsSpace(c: char) {
    var n := c as int;
    || n == 0x20 || 0x09 <= n <= 0x0D || 0x1C <= n <= 0x1F || n == 0x85 || n == 0xA0 || n == 0x1680
    || 0x2000 <= n <= 0x200A || n == 0x2028 || n == 0x2029 || n == 0x202F || n == 0x205F || n == 0x3000
  }

  predicate AllSpace(s: string) {
    forall k :: 0 <= k < |s| ==> IsSpace(s[k])
  }

  /** `s` neither starts nor ends with whitespace. */
  predicate Trimmed(s: string) {
    |s| == 0 || (!IsSpace(s[0]) && !IsSpace(s[|s| - 1]))
  }

  function StripLeading(s: string): (r: string)
    ensures |r| <= |s| && r == s[|s| - |r|..]
    ensures AllSpace(s[..|s| - |r|])
    ensures |r| == 0 || !IsSpace(r[0])
    decreases |s|
  {
    if |s| > 0 && IsSpace(s[0]) then
      var r := StripLeading(s[1..]);
      assert r == s[|s| - |r|..] by { assert s[1..][|s| - 1 - |r|..] == s[|s| - |r|..]; }
      SpaceBefore(s, |s| - 1 - |r|);
      r
    else
      assert s[..0] == [];
      s
  }

  /** A leading space followed by a run of spaces is a run of spaces. */
  lemma SpaceBefore(s: string, n: nat)
    requires 0 < |s| && n < |s| && IsSpace(s[0]) && AllSpace(s[1..][..n])
    ensures AllSpace(s[..n + 1])
  {
    var run, rest := s[..n + 1], s[1..][..n];
    forall k | 0 < k < n + 1 ensures IsSpace(run[k]) {
      assert run[k] == rest[k - 1];
    }
  }

  /** A run of spaces followed by a trailing space is a run of spaces. */
  lemma SpaceAfter(s: string, m: nat)
    requires 0 < |s| && m < |s| && IsSpace(s[|s| - 1]) && AllSpace(s[..|s| - 1][m..])
    ensures AllSpace(s[m..])
  {
    assert forall k :: 0 <= k < |s| - 1 - m ==> s[m..][k] == s[..|s| - 1][m..][k];
  }

  function StripTrailing(s: string): (r: string)
    ensures |r| <= |s| && r == s[..|r|]
    ensures AllSpace(s[|r|..])
    ensures |r| == 0 || !IsSpace(r[|r| - 1])
    decreases |s|
  {
    if |s| > 0 && IsSpace(s[|s| - 1]) then
      var r := StripTrailing(s[..|s| - 1]);
      assert r == s[..|r|];
      SpaceAfter(s, |r|);
      r
    else
      assert s[|s|..] == [];
      s
  }

  /** `s.strip()`: `s` with its leading and trailing whitespace removed. */
  function Strip(s: string): (r: string)
    ensures Trimmed(r)
    ensures |r| <= |s|
  {
    StripTrailing(StripLeading(s))
  }

  /** `strip` removes whitespace only, and only at the two ends. */
  lemma StripRemovesOnlyOuterSpace(s: string)
    ensures exists i :: 0 <= i <= |s| - |Strip(s)| && s == s[..i] + Strip(s) + s[i + |Strip(s)|..]
                        && AllSpace(s[..i]) && AllSpace(s[i + |Strip(s)|..])
  {
    var a := StripLeading(s);
    var r := StripTrailing(a);
    var i := |s| - |a|;
    assert r == Strip(s);
    SplitAround(s, i, r, a);
    assert 0 <= i <= |s| - |r| && s == s[..i] + r + s[i + |r|..] && AllSpace(s[..i]) && AllSpace(s[i + |r|..]);
  }

  lemma SplitAround(s: string, i: nat, r: string, a: string)
    requires i <= |s| && a == s[i..] && |r| <= |a| && r == a[..|r|]
    requires AllSpace(a[|r|..])
    ensures s == s[..i] + r + s[i + |r|..]
    ensures AllSpace(s[i + |r|..])
  {
    assert s[i + |r|..] == a[|r|..];
    assert s == s[..i] + a;
    assert a == r + a[|r|..];
  }

  /** Whatever whitespace surrounds a trimmed string, `strip` returns exactly that string. */
  lemma {:induction false} StripUnique(p: string, m: string, q: string)
    requires AllSpace(p) && AllSpace(q) && Trimmed(m)
    ensures Strip(p + m + q) == m
  {
    if |m| > 0 {
      assert p + m + q == p + (m + q);
      StripLeadingOf(p, m + q);
      StripTrailingOf(m, q);
    } else {
      assert p + m + q == (p + q) + [];
      assert AllSpace(p + q) by {
        forall k | 0 <= k < |p + q| ensures IsSpace((p + q)[k]) {
          if k < |p| { assert (p + q)[k] == p[k]; } else { assert (p + q)[k] == q[k - |p|]; }
        }
      }
      StripLeadingOf(p + q, []);
    }
  }

  lemma {:induction false} StripLeadingOf(p: string, rest: string)
    requires AllSpace(p) && (|rest| == 0 || !IsSpace(rest[0]))
    ensures StripLeading(p + rest) == rest
    decreases |p|
  {
    if |p| == 0 {
      assert p + rest == rest;
    } else {
      assert (p + rest)[1..] == p[1..] + rest;
      StripLeadingOf(p[1..], rest);
    }
  }

  lemma {:induction false} StripTrailingOf(m: string, q: string)
    requires AllSpace(q) && Trimmed(m)
    ensures StripTrailing(m + q) == m
    decreases |q|
  {
    if |q| == 0 {
      assert m + q == m;
    } else {
      assert (m + q)[..|m + q| - 1] == m + q[..|q| - 1];
      StripTrailingOf(m, q[..|q| - 1]);
    }
  }

  /** Stripping twice is stripping once. */
  lemma StripIdempotent(s: string)
    ensures Strip(Strip(s)) == Strip(s)
  {
    var r := Strip(s);
    assert [] + r + [] == r;
    StripUnique([], r, []);
  }

  /** Every line stripped, in order: `[line.strip() for line in lines]`. */
  function StrippedLines(lines: seq<string>): (r: seq<string>)
    ensures |r| == |lines| && forall i :: 0 <= i < |r| ==> r[i] == Strip(lines[i])
  {
    seq(|lines|, i requires 0 <= i < |lines| => Strip(lines[i]))
  }
}

=== FILE: window_handler.dfy ===
/** Window lookup and window-centre arithmetic of `io/window_handler.py`. */
module WindowHandler {
  import opened Wrappers
  import opened Geometry

  /** The `(left, top, right, bottom)` tuple that `GetWindowRect` returns. */
  datatype Rect = Rect(left: int, top: int, right: int, bottom: int) {
    function Width(): int { right - left }
    function Height(): int { bottom - top }
  }

  /** A window handle; `0` is the "no such window" answer of `FindWindow`. */
  type Handle = int

  datatype WindowError = NotDetected(windowName: string)

  /** Extra pixels added to the y of the absolute centre (title bar allowance). */
  const TitleBarOffset := 20

  /**
   * `select_window`: looks the window up by its title and returns its rectangle, or raises
   * when the lookup answers handle 0. The two Win32 calls are oracles.
   */
  function SelectWindow(name: string, findWindow: string -> Handle, getWindowRect: Handle -> Rect)
    : (r: Result<Rect, WindowError>)
    ensures r.Err? <==> findWindow(name) == 0
    ensures r.Err? ==> r.error == NotDetected(name)
    ensures r.Ok? ==> r.value == getWindowRect(findWindow(name))
  {
    var hwnd := findWindow(name);
    if hwnd == 0 then Err(NotDetected(name)) else Ok(getWindowRect(hwnd))
  }

  /** `get_relative_window_center`: the window centre in window-local coordinates. */
  function RelativeCenter(d: Rect): (c: Point)
    ensures 2 * c.x <= d.Width() < 2 * c.x + 2
    ensures 2 * c.y <= d.Height() < 2 * c.y + 2
    ensures d.Width() >= 0 ==> 0 <= c.x <= d.Width()
    ensures d.Height() >= 0 ==> 0 <= c.y <= d.Height()
  {
    Point(Half(d.right - d.left), Half(d.bottom - d.top))
  }

  /** `get_absolute_window_center`: the screen point the pointer is parked on. */
  function AbsoluteCenter(d: Rect): (c: Point)
    ensures c.x == d.left + RelativeCenter(d).x
    ensures c.y == d.top + RelativeCenter(d).y + TitleBarOffset
    ensures d.left <= d.right ==> d.left <= c.x <= d.right
  {
    Point(Half(d.right - d.left) + d.left, Half(d.bottom - d.top) + d.top + TitleBarOffset)
  }
}

=== FILE: wrappers.dfy ===
/** Failure-carrying datatypes shared by the modules of this model. */
module Wrappers {

  /** A Python value that may be `None`. */
  datatype Option<+T> = None | Some(value: T)

  /** The outcome of an operation that either returns a value or raises/exits with an error. */
  datatype Result<+T, +E> = Ok(value: T) | Err(error: E)

  /** Python truthiness of an optional integer argument: `None` and `0` are falsy. */
  predicate Truthy(o: Option<int>) {
    o.Some? && o.value != 0
  }
}
